=== FILE: README.md ===
# BCA receipt OCR parsers, modelled in Dafny

The repository turns the OCR text of a photographed BCA card-terminal slip into
a JSON record. It does this with two independent, pure parsers:

- `parseStrukText` (pages/api/process-image-link.js). It splits the text into
  trimmed, non-empty lines. It finds the merchant name as the first acceptable
  line after the first line that mentions `BCA`. It then runs a fixed list of
  leftmost-match extractors: date/time, terminal id, merchant id, card type,
  masked card number, batch, trace, approval, reference, total amount and
  internal code. Finally it classifies the status and notes by substring tests.
- `parseReceiptText` (pages/api/process-receipt.js). It takes the merchant name
  from the first line that is not noise, cleaned of a `MID:` prefix and a
  `DATE:` clause. It reads the ids with a combined pattern and falls back to
  single patterns. It corrects the century of the date, rebuilds the card mask,
  parses the `TOTAL` amount with a `-Rp` fallback, negates a void total, and
  builds one line item.

How the model works:

- Each regular expression is written as a matcher at one start position. The
  matcher follows the path the JavaScript backtracking engine settles on.
- `Scan.Leftmost` searches for the leftmost position where a matcher succeeds.
  This gives the first-match-wins behaviour of a non-global `String.prototype.match`.
- Strings are `seq<char>`. Case folding is ASCII, as a non-unicode `/i` pattern does it.
- Numbers are exact decimals with a NaN variant (`Decimal.Number`).
- `toFixed(2)` is a sign plus a whole number of hundredths (`Decimal.Fixed`).
- Every key of the second parser's result is a `Receipt.Field`: `Absent` when
  the key was never set, `Null` when it was set to `null`, and `Present` otherwise.

Modules, in dependency order:

- `Chars`: character classes.
- `Scan`: runs, literals, anchors, the leftmost search.
- `Text`: `trim`, `split`, `toUpperCase`, `includes`, the `replace` shapes.
- `Decimal`: `parseFloat`, unary minus, `toFixed(2)`.
- `StrukFields` and `Struk`: the first parser.
- `ReceiptFields` and `Receipt`: the second parser.

Behaviours of the code that the model keeps:

- The second parser stores `null` for unresolved ids, address, card number and
  payment method, and for both date keys when the date cannot be built; other
  unresolved keys stay unset.
- An amount run without digits (such as `.,`) makes the first parser store NaN
  and the second store the text `"NaN"`.
- Only the second parser turns a void total negative. The first parser's
  `VOID` test is case-sensitive and only sets the status.
- `transaction_status` is always set by the first parser, including on empty text.

## Model

| member | source | states |
|---|---|---|
| Text.Trim | pages/api/process-image-link.js:96 | `trim` gives a string no longer than its input that neither starts nor ends with whitespace |
| Text.TrimIsInfix | pages/api/process-image-link.js:96 | what `trim` removes is whitespace at the two ends and nothing else; the result is a contiguous part of the input |
| Text.TrimIdempotent | pages/api/process-receipt.js:24 | trimming an already trimmed line changes nothing |
| Text.TrimKeepsOut | pages/api/process-image-link.js:96 | trimming never introduces a character, so a trimmed piece of a split keeps no separator |
| Text.Split | pages/api/process-receipt.js:21 | `split('\n')` yields at least one piece, no piece holds a line feed, and joining the pieces with line feeds gives back the text |
| Text.IndexOf | pages/api/process-image-link.js:104 | the substring search returns the first position where the needle occurs, and none exactly when it occurs nowhere |
| Text.RemoveAll | pages/api/process-image-link.js:204 | `replace(/\./g, '')` leaves no dot and keeps every other kind of character |
| Text.RemoveAllCounts | pages/api/process-image-link.js:204 | every dot goes and every other character stays exactly as often as it occurred |
| Text.RemoveAllAppend | pages/api/process-image-link.js:204 | the removal distributes over concatenation, so the kept characters stay in their order |
| Text.CharIndex | pages/api/process-image-link.js:204 | the position a one-character `replace` acts on: the first occurrence, and none exactly when the character is absent |
| Text.ReplaceFirstOnce | pages/api/process-image-link.js:204 | `replace(',', '.')` leaves text without a comma alone and otherwise changes exactly the first comma |
| Text.ReplaceFirstAfter | pages/api/process-image-link.js:204 | the comma after a comma-free integer part is the one that becomes the point |
| Text.ReplaceFirstKeepsOut | pages/api/process-receipt.js:92 | replacing the comma never introduces any other character, such as a minus sign |
| Text.RemoveFirstOnce | pages/api/process-receipt.js:54 | `replace(/,/, '')` leaves text without a comma alone and otherwise deletes exactly the first comma |
| Text.FirstWhere | pages/api/process-receipt.js:23-33 | the first index satisfying a test, with no earlier index satisfying it, and none exactly when no index does |
| Scan.Leftmost | pages/api/process-image-link.js:142 | `match` reports the leftmost start position where the pattern matches, with its capture, and no earlier position matches |
| Scan.FirstCapture | pages/api/process-image-link.js:177-198 | a pattern's group is found exactly when the pattern matches somewhere, and it is the capture at the leftmost matching position |
| Decimal.ParseDecimal | pages/api/process-image-link.js:205 | `parseFloat` of `digits.digits` is the decimal those digits spell, NaN when both parts are empty |
| Decimal.NormaliseLocaleAmount | pages/api/process-image-link.js:204 | dropping the dots and turning the comma into a point maps `1.234,56` to `1234.56` |
| Decimal.ParseLocaleAmount | pages/api/process-receipt.js:87-88 | a dot-grouped amount with a decimal comma parses to the decimal its digits spell |
| Decimal.ParseLocaleInteger | pages/api/process-image-link.js:204-205 | a comma-free dot-grouped amount parses to its digits as an integer, or NaN when it has no digit |
| Decimal.ParseIntegerPrefix | pages/api/process-image-link.js:205 | `parseFloat` reads the longest numeric prefix: text after an integer that starts with neither a digit, a point nor a sign is ignored |
| Decimal.ParseDecimalPrefix | pages/api/process-image-link.js:205 | `parseFloat` reads the longest numeric prefix: `<digits>.<digits>` followed by a non-digit is worth that decimal, NaN when both parts are empty |
| Decimal.RemoveDotsAroundFirstComma | pages/api/process-image-link.js:204 | removing the dots keeps the first comma between the dot-free parts around it |
| Decimal.NormaliseLocaleAmountRest | pages/api/process-image-link.js:204 | every dot goes and only the first comma becomes the point, whatever follows a second comma |
| Decimal.ParseLocaleAmountRest | pages/api/process-image-link.js:204-205 | any amount with a comma is worth the dot-free digits before the first comma, with the dot-free digits up to a second comma as the fraction; a second comma stops the reading |
| Decimal.NormaliseAmountKeepsOut | pages/api/process-receipt.js:87 | normalising brings in no character other than the decimal point |
| Decimal.ToFixed2 | pages/api/process-receipt.js:88 | `toFixed(2)` keeps the sign and rounds the magnitude to the nearest hundredth, ties up; NaN and only NaN gives the non-finite result |
| Decimal.ParseRenderedFixed | pages/api/process-receipt.js:98 | `parseFloat` reads back exactly the value `toFixed(2)` rendered |
| Decimal.NegatePositiveFixed | pages/api/process-receipt.js:99 | negating a positive rendered total and rendering it again only prefixes a minus sign |
| Decimal.NormaliseAmountUnsigned | pages/api/process-receipt.js:92 | the amount normalisation never introduces a minus sign |
| Decimal.ParseFloat | pages/api/process-image-link.js:205 | `parseFloat` of text without a digit is NaN, and a negative result needs a leading minus sign |
| Decimal.ParseUnsigned | pages/api/process-image-link.js:205 | reading unsigned text gives NaN when it has no digit, and otherwise a number at least zero |
| Decimal.NormaliseAmount | pages/api/process-receipt.js:92 | the normalised amount has a decimal point exactly when the text had a comma, and without a comma it is the text with its dots removed |
| Decimal.RenderFixed | pages/api/process-receipt.js:88 | `toFixed(2)` of a finite number ends in a point and two digits and starts with `-` exactly when negative; NaN renders without a digit |
| Decimal.ParseRenderedCents | pages/api/process-receipt.js:98 | the unsigned rendering of a count of hundredths starts with a digit and reads back as that count over one hundred |
| StrukFields.LabelledDateAt | pages/api/process-image-link.js:133 | the labelled date/time pattern captures text that starts with the day's digit |
| StrukFields.ShortDateAt | pages/api/process-image-link.js:134 | the short date/time pattern captures text that starts with the day's digit |
| StrukFields.StripDateLabel | pages/api/process-image-link.js:138 | only the leftmost `DATE`/`TIME` label is cut out; a group without one is unchanged |
| StrukFields.DateTimeOf | pages/api/process-image-link.js:133-139 | `transaction_date_time` is set exactly when one of the two date patterns matches; the labelled pattern has priority, the short one is used only when it matches nowhere, and the stored text is the capture with its leftmost `DATE`/`TIME` label cut out, trimmed |
| StrukFields.TerminalAt | pages/api/process-image-link.js:142 | a terminal capture is a non-empty run of ASCII letters and digits |
| StrukFields.MerchantCodeAt | pages/api/process-image-link.js:148 | a merchant capture is a non-empty run of digits |
| StrukFields.CardTypeAt | pages/api/process-image-link.js:159 | the `CARD TYPE` capture is non-empty |
| StrukFields.DebitCardTypeAt | pages/api/process-image-link.js:164 | the generic capture starts with `DEBIT`, and at some position at least five characters in it reads `MC`, `BCA` or `VISA` ignoring case |
| StrukFields.MaskedCardAt | pages/api/process-image-link.js:171 | a masked card is at least six asterisks followed by exactly four digits |
| StrukFields.BatchAt | pages/api/process-image-link.js:177 | a batch number is a non-empty run of digits |
| StrukFields.LabelledDigitsAt | pages/api/process-image-link.js:183-196 | a trace number, approval code or reference number is a non-empty run of digits right after its label |
| StrukFields.AmountAt | pages/api/process-image-link.js:202 | the amount run is non-empty and made of digits, dots and commas; the sign group is `-` exactly when the match starts with a minus |
| StrukFields.InternalCodeAt | pages/api/process-image-link.js:214 | an internal code match is at least four characters long |
| Struk.NonEmptyTrimmedShape | pages/api/process-image-link.js:96 | every normalised line is non-empty, already trimmed, and free of the separator |
| Struk.NonEmptyTrimmedComplete | pages/api/process-image-link.js:96 | every piece that is not blank survives, trimmed |
| Struk.NonEmptyTrimmedAppend | pages/api/process-image-link.js:96 | the line normaliser keeps the input order: it distributes over concatenation |
| Struk.LinesShape | pages/api/process-image-link.js:96 | the lines are clean, none is lost, and empty text gives no lines |
| Struk.Lines | pages/api/process-image-link.js:96 | every line is non-empty, already trimmed and free of line feeds |
| Struk.ShortSymbolNeverLong | pages/api/process-image-link.js:110 | on a line longer than three characters the exclusion pattern fires exactly when an excluded prefix does: its last, short-symbol branch never fires there |
| Struk.MerchantName | pages/api/process-image-link.js:99-128 | a resolved merchant name is the trimmed form of an acceptable line |
| Struk.MerchantNameAccepted | pages/api/process-image-link.js:120 | a merchant name is longer than three characters, contains an ASCII letter, and starts with no excluded prefix |
| Struk.MerchantNameFirst | pages/api/process-image-link.js:102-126 | the name is the first acceptable line strictly after the first anchor line |
| Struk.MerchantNameNone | pages/api/process-image-link.js:102-128 | no name is resolved exactly when no acceptable line lies after any anchor line |
| Struk.MerchantNameAbsent | pages/api/process-image-link.js:102-128 | when the outer loop has met every anchor without finding an accepted line below it, the scan resolves no name |
| Struk.MerchantNameFound | pages/api/process-image-link.js:107-123 | what the loops know when they accept a line pins the single-scan result down |
| Struk.ScanBelow | pages/api/process-image-link.js:107-124 | the inner loop stops at the first line below the anchor whose trimmed text is accepted, and finding none means no line below is acceptable |
| Struk.ResolveMerchantName | pages/api/process-image-link.js:99-128 | the nested loops with their two `break`s compute the single-scan result |
| Struk.LastNine | pages/api/process-image-link.js:151-155 | `slice(-9)` on a run of nine or more keeps its last nine characters; a shorter run is kept whole |
| Struk.MerchantId | pages/api/process-image-link.js:148-156 | `merchant_id` is set exactly when the pattern matches; it is one to nine digits, the tail of the captured run, and the run itself when shorter than nine |
| Struk.CardType | pages/api/process-image-link.js:159-168 | the `CARD TYPE` pattern has priority; the `DEBIT` pattern is used only when it matches nowhere; the stored text is trimmed |
| Struk.MaskedCard | pages/api/process-image-link.js:171-174 | `card_number_masked` is set exactly when the pattern matches, is asterisks followed by four digits, and is the capture of the leftmost match |
| Struk.TerminalId | pages/api/process-image-link.js:142-145 | `terminal_id` is set exactly when the pattern matches, is a run of letters and digits, and is the capture of the leftmost match |
| Struk.AmountValueLocale | pages/api/process-image-link.js:202-210 | a dot-grouped amount with a decimal comma is worth the decimal its digits spell, negated exactly when the sign group captured `-` |
| Struk.AmountValueInteger | pages/api/process-image-link.js:202-210 | a dot-grouped amount without a comma is worth its digits as an integer, with the captured sign |
| Struk.AmountValueComma | pages/api/process-image-link.js:202-210 | every amount run with a comma, dots after it and a second comma included, is worth the signed decimal of its dot-free digits up to the second comma |
| Struk.AmountExampleSecondComma | pages/api/process-image-link.js:202-210 | `Rp 1,000,000` gives 1, because the second comma stops `parseFloat` |
| Struk.AmountValue | pages/api/process-image-link.js:202-210 | for digits without a minus sign, the total is negative only when the sign group captured `-`, and is at most zero whenever it did |
| Struk.AmountExampleLocale | pages/api/process-image-link.js:202-210 | `Rp 15.000,50` gives 15000.5 |
| Struk.AmountExampleNegative | pages/api/process-image-link.js:202-210 | `-Rp 5.000,00` gives -5000 |
| Struk.AmountWithoutDigits | pages/api/process-image-link.js:204-209 | a run without digits such as `.,` gives NaN, which is stored |
| Struk.TotalAmount | pages/api/process-image-link.js:202-210 | `total_amount` is set exactly when the amount pattern matches somewhere, and is the value of the leftmost match |
| Struk.Status | pages/api/process-image-link.js:220-224 | the status is always set; it is `VOID` exactly when the text contains `VOID` with that case, else `COMPLETED` |
| Struk.Notes | pages/api/process-image-link.js:227-229 | `notes` is the fixed remark exactly when that text occurs |
| Struk.ParseStrukText | pages/api/process-image-link.js:93-237 | the raw text is returned unchanged next to the fields; the merchant name is the single-scan result; every other key is exactly its field: the date and time, the terminal and merchant ids, the card type, the masked card, the batch, trace, approval and reference numbers, the internal reference, the total, the status and the notes |
| ReceiptFields.LastDash | pages/api/process-receipt.js:29 | the last dash of a range, and none exactly when the range holds no dash |
| ReceiptFields.MidPrefixEnd | pages/api/process-receipt.js:29 | the `MID` prefix pattern, when it matches, ends after at least five characters |
| ReceiptFields.StripMidPrefix | pages/api/process-receipt.js:29 | removing the `MID` prefix leaves a suffix of the line, and a line without `MID` at its start is unchanged |
| ReceiptFields.StripDateSuffix | pages/api/process-receipt.js:30 | removing the `DATE:` clause leaves a prefix of the line cut at the leftmost clause start; a line without one is unchanged |
| ReceiptFields.CombinedIdsAt | pages/api/process-receipt.js:37 | both groups of the combined id pattern are non-empty runs of letters and digits |
| ReceiptFields.TerminalAt | pages/api/process-receipt.js:43 | the terminal fallback capture is a non-empty run of letters and digits |
| ReceiptFields.MerchantAt | pages/api/process-receipt.js:44 | the merchant fallback capture is a non-empty run of letters and digits |
| ReceiptFields.JlAddressAt | pages/api/process-receipt.js:48 | a `JL` address capture is at least two characters long and begins with a non-space character |
| ReceiptFields.JalanAddressAt | pages/api/process-receipt.js:48 | a `Jalan` address capture is at least five characters long and begins with a non-space character |
| ReceiptFields.DateTimeAt | pages/api/process-receipt.js:51 | the time group is exactly `HH:MM` |
| ReceiptFields.CardDigitsAt | pages/api/process-receipt.js:68 | the card group is exactly four digits |
| ReceiptFields.PaymentLineFrom | pages/api/process-receipt.js:74 | the lazy payment-method group never crosses a line terminator |
| ReceiptFields.PaymentMethodAt | pages/api/process-receipt.js:74 | the payment-method group holds no line terminator |
| ReceiptFields.SoftwareAt | pages/api/process-receipt.js:77 | the software code is a run of letters and digits, and the type starts with `ANS` and has more after it |
| ReceiptFields.TotalAt | pages/api/process-receipt.js:84 | a `TOTAL` group is at least the currency and one more character |
| ReceiptFields.NegativeAmountAt | pages/api/process-receipt.js:90 | the fallback amount group is a non-empty run of digits, dots and commas |
| Receipt.Extract | pages/api/process-receipt.js:13-16 | `extract` never leaves the key unset, and gives `null` exactly when the pattern matches nowhere |
| Receipt.ExtractLeftmost | pages/api/process-receipt.js:13-16 | the extracted value is the trimmed group of the leftmost match |
| Receipt.MerchantNameOf | pages/api/process-receipt.js:21-34 | the name is never `null`; it stays unset exactly when every line is noise |
| Receipt.MerchantNameFromFirst | pages/api/process-receipt.js:23-33 | the name is the cleaned first non-noise line; later lines never replace it |
| Receipt.ResolveMerchantName | pages/api/process-receipt.js:21-34 | the loop with its `continue` and its found flag computes the first-candidate result |
| Receipt.CleanNamePlain | pages/api/process-receipt.js:29-31 | a line with neither a `MID` prefix nor a `DATE:` clause gives its trimmed self |
| Receipt.MidPrefixRemoved | pages/api/process-receipt.js:29 | `MID:<ids>-<spaces><name>` loses everything up to the name, the cut falling after the last dash |
| Receipt.Ids | pages/api/process-receipt.js:37-45 | both ids are always set; when the combined pattern matches anywhere both are its leftmost groups, untrimmed; otherwise each is the extract of its own pattern |
| Receipt.IdsAlphaNum | pages/api/process-receipt.js:37-45 | each id, from either route, is a non-empty run of letters and digits |
| Receipt.CombinedMatchesSingles | pages/api/process-receipt.js:37-44 | where the combined pattern matches, each single pattern matches with the same capture |
| Receipt.IdsNullExactly | pages/api/process-receipt.js:37-45 | an id is `null` exactly when its own pattern matches nowhere |
| Receipt.Address | pages/api/process-receipt.js:48 | the address is always set; a `JL` line anywhere takes priority, and `Jalan` is consulted only when there is none |
| Receipt.JlAddressNonEmpty | pages/api/process-receipt.js:48 | an extracted `JL` address is never empty, so the `||` falls through only on `null` |
| Receipt.WithYear | pages/api/process-receipt.js:57 | `setFullYear` keeps the month and day, except that 29 February of a year without one becomes 1 March; a valid date stays valid |
| Receipt.CenturyCorrected | pages/api/process-receipt.js:56-58 | a year before 2000 gains a hundred years, and a later date is unchanged |
| Receipt.CenturyCorrectedTwentyFirst | pages/api/process-receipt.js:56-58 | a 19xx year lands in 20xx, and correcting twice equals correcting once |
| Receipt.CenturyCorrectedKeepsDay | pages/api/process-receipt.js:56-58 | the correction keeps month and day except for a 29 February that the later year lacks |
| Receipt.DateTimeFields | pages/api/process-receipt.js:51-65 | both date keys are unset together exactly when the pattern matches nowhere; after a match both are `null` exactly when the date built from the first group with its first comma removed fails; the time is the captured `HH:MM` token |
| Receipt.DateTimeCorrected | pages/api/process-receipt.js:51-60 | a stored date is the corrected built date of a match, and lies in 2000 or later when the built year was 1900 or later |
| Receipt.CardNumber | pages/api/process-receipt.js:68-71 | the card number is always set; it is `null` exactly when no run of eight stars and four digits occurs, else twelve stars followed by the four digits after the leftmost such run |
| Receipt.CardDigitsShape | pages/api/process-receipt.js:68 | the extracted card group is exactly four digits |
| Receipt.SoftwareFields | pages/api/process-receipt.js:77-81 | the two software keys are set together, exactly when the pattern matches, never `null`, and hold the two groups of the leftmost match |
| Receipt.FallbackFixed | pages/api/process-receipt.js:90-94 | the `-Rp` fallback yields a total exactly when its pattern matches somewhere, and it is the negated, normalised leftmost amount rounded to hundredths |
| Receipt.TotalFixed | pages/api/process-receipt.js:84-95 | a total is produced exactly when the `TOTAL` or the `-Rp` pattern matches; a `TOTAL` match gives the rounded value of its leftmost group with the currency cut, and the fallback is used only when `TOTAL` matches nowhere |
| Receipt.TotalFixedLocale | pages/api/process-receipt.js:84-88 | a leftmost `TOTAL` group `Rp. 15.000,50` makes the total that decimal rounded to hundredths |
| Receipt.TotalFixedInteger | pages/api/process-receipt.js:84-88 | when the leftmost `TOTAL` group is comma-free, the total is its signed integer rounded to hundredths |
| Receipt.TotalFixedComma | pages/api/process-receipt.js:84-88 | when the leftmost `TOTAL` group has a comma, the total is its signed decimal rounded to hundredths |
| Receipt.FallbackFixedInteger | pages/api/process-receipt.js:89-94 | with no `TOTAL` match, a comma-free `-Rp` amount gives its integer negated and rounded |
| Receipt.FallbackFixedComma | pages/api/process-receipt.js:89-94 | with no `TOTAL` match, a `-Rp` amount with a comma such as `-Rp 5.000,00` gives its decimal negated and rounded |
| Receipt.CurrencyPrefixOf | pages/api/process-receipt.js:87 | cutting the currency prefix off `Rp.<spaces><amount>` leaves the amount |
| ReceiptFields.StripCurrency | pages/api/process-receipt.js:87 | the group is unchanged when no currency prefix occurs; otherwise it is the group with its leftmost prefix cut out |
| ReceiptFields.StripCurrencyKeepsOut | pages/api/process-receipt.js:87 | cutting the prefix out brings in no character the group lacked |
| ReceiptFields.CurrencyPrefixAtSigned | pages/api/process-receipt.js:87 | in a group `<sign>Rp<dot><spaces><amount>`, with `Rp` in any letter case, the prefix starts after the sign and ends where the amount starts, taking a leading amount dot only when neither a dot nor a space follows `Rp` |
| ReceiptFields.StripCurrencySigned | pages/api/process-receipt.js:87 | cutting the prefix out of such a group leaves the sign followed by the amount |
| ReceiptFields.StripCurrencyAt | pages/api/process-receipt.js:87 | the prefix with no earlier start is the one cut out |
| ReceiptFields.NoCurrencyPrefixAtMinus | pages/api/process-receipt.js:87 | no currency prefix starts at a minus sign |
| Receipt.TotalNumber | pages/api/process-receipt.js:87-88 | a `TOTAL` group without a minus sign reads as NaN or as a number at least zero |
| Receipt.TotalNumberLocale | pages/api/process-receipt.js:87-88 | a `TOTAL` group `Rp. 15.000,50` is worth the decimal its digits spell |
| Receipt.AmountUnsigned | pages/api/process-receipt.js:84 | an amount run of digits, dots and commas holds no sign character |
| Receipt.TotalNumberSigned | pages/api/process-receipt.js:84-88 | every `TOTAL` group is worth its normalised amount, negated exactly when the group captured the minus sign, for either letter case of `Rp` and with or without its dot |
| Receipt.TotalNumberInteger | pages/api/process-receipt.js:84-88 | a comma-free group such as `Rp. 150.000` is worth its dot-free digits as an integer, with the captured sign |
| Receipt.TotalNumberComma | pages/api/process-receipt.js:84-88 | a group with a comma such as `-RP 5.000,00` is worth the signed decimal of its dot-free digits, the fraction ending at a second comma |
| Receipt.TotalExampleInteger | pages/api/process-receipt.js:84-88 | `TOTAL Rp. 150.000` is worth 150000 |
| Receipt.TotalExampleNegative | pages/api/process-receipt.js:84-88 | `TOTAL -RP 5.000,00` is worth -5000 |
| Receipt.NegatedAmountNotPositive | pages/api/process-receipt.js:92-93 | the fallback's negated amount is NaN or at most zero |
| Receipt.FallbackTotalNotPositive | pages/api/process-receipt.js:90-94 | the fallback total is never positive |
| Receipt.TotalText | pages/api/process-receipt.js:84-95 | the total text is set exactly when a total is produced, never `null`, and reads back as the value `toFixed(2)` rendered |
| Receipt.VoidCorrected | pages/api/process-receipt.js:98-100 | the void check changes nothing on a text without `VOID`, and never sets or clears the key |
| Receipt.IsVoid | pages/api/process-receipt.js:98 | the text counts as void exactly when `VOID` occurs in it ignoring case |
| Text.IncludesIgnoreCaseAt | pages/api/process-receipt.js:98 | an upper-case word is found ignoring case exactly where the text matches it letter for letter ignoring case |
| Receipt.VoidPrefixesMinus | pages/api/process-receipt.js:98-100 | on a void receipt a positive total gains a minus sign and nothing else |
| Receipt.LineItems | pages/api/process-receipt.js:103-107 | exactly one line item, described `VOID` exactly on a void receipt, with amount 0 when no total was set |
| Receipt.ParseReceiptText | pages/api/process-receipt.js:10-110 | the merchant name is the first-candidate result; every other key is exactly its field: the ids, the address, the date and time, the card number, the payment method, the software keys, the void-corrected total and the line items built from that total; the currency is `Rp` |
| Receipt.VoidTotalNotPositive | pages/api/process-receipt.js:98-100 | a void receipt never reports a positive total |
| Receipt.LineItemMatchesTotal | pages/api/process-receipt.js:103-107 | the line item's amount is the number the total text denotes, or 0 when no total was set |

## Left out

- The HTTP handlers are not modelled: request checks, status codes, the OCR.space call, the tesseract worker, environment variables and logging. They are network and process I/O around the parsers.
- pages/api/process-receipt-ocrspace.js is not part of this model. Its parser lives in a file that is not part of this model either.
- src/app/page.js is not part of this model. It is presentation and `fetch` calls.
- Receipt.DateTimeFields: `new Date(text)` is the parameter `construct`, because JavaScript date-string parsing is implementation-defined. Only the century correction and the `setFullYear` roll-over are modelled.
- Receipt.DateTimeFields: the date is stored as a calendar date. The source stores it as the date part of `toISOString()`, which is in UTC, so a local-time offset can shift the day. That rendering and shift are not modelled, and neither is the range error `toISOString` raises for years beyond its range.
- Decimal.ParseFloat: skips no leading whitespace and does not read exponents or `Infinity`. No amount text reaching it here can start with whitespace or contain those characters.
- Decimal.ParseFloat: its own contract states only the NaN case and the sign. Its value on the longest numeric prefix is stated by Decimal.ParseIntegerPrefix, Decimal.ParseDecimalPrefix and Decimal.ParseDecimal.
- Struk.AmountValue: its own contract states only the sign. The value of every amount run is stated by Struk.AmountValueInteger for runs without a comma and Struk.AmountValueComma for runs with one.
- Receipt.TotalNumber: its own contract states only the sign of a group without a minus. The value of every `TOTAL` group is stated by Receipt.TotalNumberSigned, Receipt.TotalNumberInteger and Receipt.TotalNumberComma.
- Decimal.ToFixed2: rounds the exact decimal value, not the binary double. A value such as 1.005 therefore rounds up here, while IEEE-754 gives `1.00`. The exponent form of `toFixed` for magnitudes of 10^21 or more is left out too.
- Decimal.Number: has no negative zero. This changes no rendered text: `toFixed(2)` prints `0.00` for negative zero in both worlds.
- Chars.Upper: `toUpperCase` and the `/i` flag are ASCII-only here. Unicode case mappings outside ASCII (such as `ß`) are not modelled.
- Strings are sequences of code points. JavaScript's UTF-16 code units and surrogate pairs are not modelled.

=== FILE: chars.dfy ===
/** Character classes of the JavaScript regular-expression dialect both receipt
    parsers use, with the ASCII case folding a non-unicode `/i` pattern performs. */
module Chars {

  /** The JavaScript WhiteSpace and LineTerminator code points: what
      `String.prototype.trim` strips and what `\s` matches. */
  predicate IsSpace(c: char) {
    || c == ' ' || c == '\t' || c == '\n' || c == '\r' || c == '\U{000B}' || c == '\U{000C}'
    || c == '\U{00A0}' || c == '\U{1680}' || ('\U{2000}' <= c <= '\U{200A}')
    || c == '\U{2028}' || c == '\U{2029}' || c == '\U{202F}' || c == '\U{205F}'
    || c == '\U{3000}' || c == '\U{FEFF}'
  }

  /** The characters `.` refuses and the `m` flag's `^` follows. */
  predicate IsLineTerminator(c: char) {
    c == '\n' || c == '\r' || c == '\U{2028}' || c == '\U{2029}'
  }

  /** `\d` */
  predicate IsDigit(c: char) {
    '0' <= c <= '9'
  }

  /** `[A-Z]` or `[a-z]` under the `i` flag. */
  predicate IsLetter(c: char) {
    ('A' <= c <= 'Z') || ('a' <= c <= 'z')
  }

  /** `[A-Z0-9]` under the `i` flag. */
  predicate IsAlphaNum(c: char) {
    IsLetter(c) || IsDigit(c)
  }

  /** `\w` */
  predicate IsWordChar(c: char) {
    IsAlphaNum(c) || c == '_'
  }

  /** ASCII upper-casing; every other character is its own upper case. */
  function Upper(c: char): (u: char)
    ensures IsLetter(c) <==> 'A' <= u <= 'Z'
    ensures !IsLetter(c) ==> u == c
  {
    if 'a' <= c <= 'z' then (c as int - 32) as char else c
  }

  /** Equality of two strings under ASCII case folding, as an `/i` literal compares. */
  predicate EqualsIgnoreCase(a: string, b: string) {
    |a| == |b| && forall i :: 0 <= i < |a| ==> Upper(a[i]) == Upper(b[i])
  }

  /** The bracket classes and escapes the patterns of both parsers are built from. */
  datatype CharClass =
    | Digit              // \d
    | Space              // \s
    | AlphaNum           // [A-Z0-9] with the i flag
    | Word               // \w
    | Letter             // [a-z] or [A-Z] with the i flag
    | LetterOrSpace      // [A-Z\s] with the i flag
    | AmountChar         // [\d.,]
    | MidChar            // [\d\s-]
    | Star               // \*
    | NotLineTerminator  // .

  predicate InClass(c: char, k: CharClass) {
    match k
    case Digit => IsDigit(c)
    case Space => IsSpace(c)
    case AlphaNum => IsAlphaNum(c)
    case Word => IsWordChar(c)
    case Letter => IsLetter(c)
    case LetterOrSpace => IsLetter(c) || IsSpace(c)
    case AmountChar => IsDigit(c) || c == '.' || c == ','
    case MidChar => IsDigit(c) || IsSpace(c) || c == '-'
    case Star => c == '*'
    case NotLineTerminator => !IsLineTerminator(c)
  }

  predicate AllIn(s: string, k: CharClass) {
    forall i :: 0 <= i < |s| ==> InClass(s[i], k)
  }
}

=== FILE: decimal.dfy ===
/** Numbers as the parsers produce them: `parseFloat` over the normalised
    amount text, `-x`, and `toFixed(2)`. Values are exact decimals; IEEE-754
    rounding is not modelled. */
module Decimal {
  import opened Chars
  import opened Scan
  import opened Text

  /** A JavaScript number as it arises here: an exact value, or NaN. */
  datatype Number = NaN | Num(value: real)

  /** Unary minus; NaN stays NaN. */
  function Negate(n: Number): (r: Number)
    ensures r.NaN? <==> n.NaN?
    ensures r.Num? ==> r.value == -n.value
  {
    match n
    case NaN => NaN
    case Num(v) => Num(-v)
  }

  predicate AllDigits(s: string) {
    AllIn(s, Digit)
  }

  function DigitValue(c: char): (d: nat)
    requires IsDigit(c)
    ensures d < 10
  {
    c as int - '0' as int
  }

  function DigitChar(d: nat): (c: char)
    requires d < 10
    ensures IsDigit(c) && DigitValue(c) == d
  {
    ('0' as int + d) as char
  }

  /** The value of a string of decimal digits, most significant first. */
  function DigitsValue(ds: string): nat
    requires AllDigits(ds)
    decreases |ds|
  {
    if |ds| == 0 then 0 else DigitsValue(ds[..|ds| - 1]) * 10 + DigitValue(ds[|ds| - 1])
  }

  /** Appending a digit multiplies the value by ten and adds the digit. */
  lemma DigitsValueSnoc(ds: string, c: char)
    requires AllDigits(ds) && IsDigit(c)
    ensures AllDigits(ds + [c])
    ensures DigitsValue(ds + [c]) == DigitsValue(ds) * 10 + DigitValue(c)
  {
    assert (ds + [c])[..|ds|] == ds;
  }

  function Pow10(n: nat): (p: nat)
    ensures p >= 1
  {
    if n == 0 then 1 else 10 * Pow10(n - 1)
  }

  /** The decimal rendering of `n` without leading zeros. */
  function NatToString(n: nat): (s: string)
    ensures |s| >= 1 && AllDigits(s)
  {
    if n < 10 then [DigitChar(n)] else NatToString(n / 10) + [DigitChar(n % 10)]
  }

  /** Reading back a rendered natural number gives the number. */
  lemma {:induction false} NatToStringValue(n: nat)
    ensures DigitsValue(NatToString(n)) == n
  {
    if n >= 10 {
      var s := NatToString(n);
      assert s[..|s| - 1] == NatToString(n / 10);
      NatToStringValue(n / 10);
    }
  }

  /** `parseFloat(s)` for text without leading whitespace, exponent or
      `Infinity`: an optional sign, then the longest prefix of the form
      `digits[.digits]` or `.digits`; NaN when there is none. */
  function ParseFloat(s: string): (r: Number)
    ensures (forall k :: 0 <= k < |s| ==> !IsDigit(s[k])) ==> r.NaN?
    ensures r.Num? && r.value < 0.0 ==> |s| > 0 && s[0] == '-'
  {
    if |s| > 0 && s[0] == '-' then Negate(ParseUnsigned(s[1..]))
    else if |s| > 0 && s[0] == '+' then ParseUnsigned(s[1..])
    else ParseUnsigned(s)
  }

  /** The value of the decimal `whole.frac`. */
  function DecimalValue(whole: string, frac: string): (v: real)
    requires AllDigits(whole) && AllDigits(frac)
    ensures v >= DigitsValue(whole) as real >= 0.0
  {
    DigitsValue(whole) as real + DigitsValue(frac) as real / Pow10(|frac|) as real
  }

  function ParseUnsigned(s: string): (r: Number)
    ensures (forall k :: 0 <= k < |s| ==> !IsDigit(s[k])) ==> r.NaN?
    ensures r.NaN? || r.value >= 0.0
  {
    var i := RunEnd(s, 0, Digit);
    var j := if i < |s| && s[i] == '.' then RunEnd(s, i + 1, Digit) else i;
    var frac := if j > i then s[i + 1..j] else [];
    if i == 0 && |frac| == 0 then NaN
    else Num(DecimalValue(s[..i], frac))
  }

  /** A digit string followed by `.` and a digit string parses to the decimal it spells. */
  lemma ParseDecimal(whole: string, frac: string)
    requires AllDigits(whole) && AllDigits(frac)
    ensures ParseFloat(whole + "." + frac)
         == if |whole| == 0 && |frac| == 0 then NaN else Num(DecimalValue(whole, frac))
  {
    var s := whole + "." + frac;
    var i := |whole|;
    assert s[i] == '.';
    assert forall k :: 0 <= k < i ==> s[k] == whole[k];
    assert forall k :: i + 1 <= k < |s| ==> s[k] == frac[k - i - 1];
    RunEndIs(s, 0, Digit, i);
    RunEndIs(s, i + 1, Digit, |s|);
    assert s[..i] == whole;
    assert s[i + 1..|s|] == frac;
    assert s[0] != '-' && s[0] != '+';
    assert ParseFloat(s) == ParseUnsigned(s);
  }

  /** A digit string alone parses to its value, and the empty string to NaN. */
  lemma ParseInteger(whole: string)
    requires AllDigits(whole)
    ensures ParseFloat(whole) == if |whole| == 0 then NaN else Num(DigitsValue(whole) as real)
  {
    RunEndIs(whole, 0, Digit, |whole|);
    assert whole[..|whole|] == whole;
  }

  /** The locale amount normalisation: `s.replace(/\./g, '').replace(',', '.')`. */
  function NormaliseAmount(s: string): (r: string)
    ensures '.' in r <==> ',' in s
    ensures ',' !in s ==> r == RemoveAll(s, '.')
  {
    var t := RemoveAll(s, '.');
    ReplaceFirstOnce(t, ',', '.');
    ReplaceFirst(t, ',', '.')
  }

  /** A leading minus sign passes through the normalisation untouched. */
  lemma NormaliseAmountMinus(s: string)
    ensures NormaliseAmount("-" + s) == "-" + NormaliseAmount(s)
  {
    RemoveAllAppend("-", s, '.');
    assert RemoveAll("-", '.') == "-";
    var y := RemoveAll(s, '.');
    ReplaceFirstCons('-', y, ',', '.');
  }

  /** A minus sign in front of unsigned text negates what `parseFloat` reads. */
  lemma ParseFloatMinus(t: string)
    requires |t| > 0 && t[0] != '-' && t[0] != '+'
    ensures ParseFloat("-" + t) == Negate(ParseFloat(t))
  {
    assert ("-" + t)[1..] == t;
  }

  lemma {:induction false} RemoveAllNone(s: string, c: char)
    requires c !in s
    ensures RemoveAll(s, c) == s
    decreases |s|
  {
    if |s| > 0 {
      assert c !in s[1..];
      RemoveAllNone(s[1..], c);
    }
  }

  /** Removing the dots from digits-and-dots leaves digits only. */
  lemma {:induction false} RemoveDotsDigits(s: string)
    requires forall i :: 0 <= i < |s| ==> IsDigit(s[i]) || s[i] == '.'
    ensures AllDigits(RemoveAll(s, '.'))
    decreases |s|
  {
    if |s| > 0 {
      RemoveDotsDigits(s[1..]);
    }
  }

  /** Dropping the dots around a comma keeps the comma and the digits after it. */
  lemma RemoveDotsAroundComma(whole: string, frac: string)
    requires AllDigits(frac)
    ensures RemoveAll(whole + "," + frac, '.') == RemoveAll(whole, '.') + [','] + frac
  {
    var w := RemoveAll(whole, '.');
    var head := whole + ",";
    assert RemoveAll(head, '.') == w + "," by {
      RemoveAllAppend(whole, ",", '.');
      assert RemoveAll(",", '.') == ",";
    }
    assert RemoveAll(frac, '.') == frac by {
      assert '.' !in frac;
      RemoveAllNone(frac, '.');
    }
    RemoveAllAppend(head, frac, '.');
  }

  /** A dot-grouped integer part, a comma, and digits normalise to
      `<integer digits>.<fraction digits>`. */
  lemma NormaliseLocaleAmount(whole: string, frac: string)
    requires forall i :: 0 <= i < |whole| ==> IsDigit(whole[i]) || whole[i] == '.'
    requires AllDigits(frac)
    ensures AllDigits(RemoveAll(whole, '.'))
    ensures NormaliseAmount(whole + "," + frac) == RemoveAll(whole, '.') + "." + frac
  {
    var w := RemoveAll(whole, '.');
    RemoveDotsDigits(whole);
    RemoveDotsAroundComma(whole, frac);
    assert ',' !in w;
    ReplaceFirstAfter(w, frac, ',', '.');
  }

  /** A dot-grouped amount with a decimal comma parses to the decimal its digits spell. */
  lemma ParseLocaleAmount(whole: string, frac: string)
    requires forall i :: 0 <= i < |whole| ==> IsDigit(whole[i]) || whole[i] == '.'
    requires AllDigits(frac)
    requires |RemoveAll(whole, '.')| > 0 || |frac| > 0
    ensures AllDigits(RemoveAll(whole, '.'))
    ensures ParseFloat(NormaliseAmount(whole + "," + frac)) == Num(DecimalValue(RemoveAll(whole, '.'), frac))
  {
    NormaliseLocaleAmount(whole, frac);
    ParseDecimal(RemoveAll(whole, '.'), frac);
  }

  /** A dot-grouped integer without a comma normalises to its digits. */
  lemma NormaliseLocaleInteger(whole: string)
    requires forall i :: 0 <= i < |whole| ==> IsDigit(whole[i]) || whole[i] == '.'
    ensures AllDigits(RemoveAll(whole, '.'))
    ensures NormaliseAmount(whole) == RemoveAll(whole, '.')
  {
    RemoveDotsDigits(whole);
  }

  /** A comma-free dot-grouped amount parses to its digits as an integer, or
      to NaN when it holds no digit. */
  lemma ParseLocaleInteger(whole: string)
    requires forall i :: 0 <= i < |whole| ==> IsDigit(whole[i]) || whole[i] == '.'
    ensures AllDigits(RemoveAll(whole, '.'))
    ensures ParseFloat(NormaliseAmount(whole))
         == if |RemoveAll(whole, '.')| == 0 then NaN else Num(DigitsValue(RemoveAll(whole, '.')) as real)
  {
    NormaliseLocaleInteger(whole);
    ParseInteger(RemoveAll(whole, '.'));
  }

  /** `parseFloat` reads the longest numeric prefix: text after an integer
      that cannot continue a number is ignored. */
  lemma ParseIntegerPrefix(whole: string, rest: string)
    requires AllDigits(whole)
    requires |rest| == 0 || (!IsDigit(rest[0]) && rest[0] != '.' && rest[0] != '-' && rest[0] != '+')
    ensures ParseFloat(whole + rest) == ParseFloat(whole)
  {
    var s := whole + rest;
    var i := |whole|;
    assert forall k :: 0 <= k < i ==> s[k] == whole[k];
    assert i < |s| ==> s[i] == rest[0];
    RunEndIs(s, 0, Digit, i);
    RunEndIs(whole, 0, Digit, i);
    assert s[..i] == whole[..i] == whole;
    assert |s| > 0 ==> s[0] != '-' && s[0] != '+';
    assert ParseFloat(s) == ParseUnsigned(s);
    assert ParseFloat(whole) == ParseUnsigned(whole);
  }

  /** `parseFloat` reads the longest numeric prefix: text after
      `<digits>.<digits>` that does not start with a digit is ignored. */
  lemma ParseDecimalPrefix(whole: string, frac: string, rest: string)
    requires AllDigits(whole) && AllDigits(frac)
    requires |rest| == 0 || !IsDigit(rest[0])
    ensures ParseFloat(whole + "." + frac + rest)
         == if |whole| == 0 && |frac| == 0 then NaN else Num(DecimalValue(whole, frac))
  {
    var s := whole + "." + frac + rest;
    var i := |whole|;
    var e := i + 1 + |frac|;
    assert s[i] == '.';
    assert forall k :: 0 <= k < i ==> s[k] == whole[k];
    assert forall k :: i + 1 <= k < e ==> s[k] == frac[k - i - 1];
    assert e < |s| ==> s[e] == rest[0];
    RunEndIs(s, 0, Digit, i);
    RunEndIs(s, i + 1, Digit, e);
    assert s[..i] == whole;
    assert s[i + 1..e] == frac;
    assert s[0] != '-' && s[0] != '+';
    assert ParseFloat(s) == ParseUnsigned(s);
  }

  /** Dropping the dots from `<whole>,<frac><rest>` keeps the first comma
      between the two dot-free parts. */
  lemma RemoveDotsAroundFirstComma(whole: string, frac: string, rest: string)
    ensures RemoveAll(whole + "," + frac + rest, '.')
         == RemoveAll(whole, '.') + [','] + (RemoveAll(frac, '.') + RemoveAll(rest, '.'))
  {
    RemoveAllAppend(whole, ",", '.');
    assert RemoveAll(",", '.') == ",";
    RemoveAllAppend(whole + ",", frac, '.');
    RemoveAllAppend(whole + "," + frac, rest, '.');
  }

  /** Every dot goes and only the first comma becomes the decimal point,
      whatever follows a second comma. */
  lemma NormaliseLocaleAmountRest(whole: string, frac: string, rest: string)
    requires forall i :: 0 <= i < |whole| ==> IsDigit(whole[i]) || whole[i] == '.'
    requires forall i :: 0 <= i < |frac| ==> IsDigit(frac[i]) || frac[i] == '.'
    ensures AllDigits(RemoveAll(whole, '.')) && AllDigits(RemoveAll(frac, '.'))
    ensures NormaliseAmount(whole + "," + frac + rest)
         == RemoveAll(whole, '.') + "." + RemoveAll(frac, '.') + RemoveAll(rest, '.')
  {
    var s := whole + "," + frac + rest;
    var w := RemoveAll(whole, '.');
    var f := RemoveAll(frac, '.');
    var r := RemoveAll(rest, '.');
    RemoveDotsDigits(whole);
    RemoveDotsDigits(frac);
    RemoveDotsAroundFirstComma(whole, frac, rest);
    assert RemoveAll(s, '.') == w + [','] + (f + r);
    assert ',' !in w;
    ReplaceFirstAfter(w, f + r, ',', '.');
    assert NormaliseAmount(s) == ReplaceFirst(RemoveAll(s, '.'), ',', '.');
    PointBetween(w, f, r);
  }

  lemma PointBetween(w: string, f: string, r: string)
    ensures w + ['.'] + (f + r) == w + "." + f + r
  {
    var x := w + ['.'] + (f + r);
    var y := w + "." + f + r;
    assert |x| == |y|;
    forall i | 0 <= i < |x| ensures x[i] == y[i] {
      if i < |w| + 1 + |f| { assert y[i] == (w + "." + f)[i]; }
    }
  }

  /** Any amount with a comma: the dot-free digits before the first comma are
      the integer part, the dot-free digits up to a second comma are the
      fraction, and the rest is never read. */
  lemma ParseLocaleAmountRest(whole: string, frac: string, rest: string)
    requires forall i :: 0 <= i < |whole| ==> IsDigit(whole[i]) || whole[i] == '.'
    requires forall i :: 0 <= i < |frac| ==> IsDigit(frac[i]) || frac[i] == '.'
    requires |rest| == 0 || rest[0] == ','
    ensures AllDigits(RemoveAll(whole, '.')) && AllDigits(RemoveAll(frac, '.'))
    ensures ParseFloat(NormaliseAmount(whole + "," + frac + rest))
         == if |RemoveAll(whole, '.')| == 0 && |RemoveAll(frac, '.')| == 0 then NaN
            else Num(DecimalValue(RemoveAll(whole, '.'), RemoveAll(frac, '.')))
  {
    var r := RemoveAll(rest, '.');
    NormaliseLocaleAmountRest(whole, frac, rest);
    if |rest| > 0 {
      assert r == [','] + RemoveAll(rest[1..], '.');
    }
    ParseDecimalPrefix(RemoveAll(whole, '.'), RemoveAll(frac, '.'), r);
  }

  /** Normalising an amount brings in no character other than the decimal point. */
  lemma NormaliseAmountKeepsOut(s: string, c: char)
    requires c !in s && c != '.'
    ensures c !in NormaliseAmount(s)
  {
    var t := RemoveAll(s, '.');
    assert c !in t;
    ReplaceFirstKeepsOut(t, ',', '.', c);
  }

  /** The result of `toFixed(2)`: the text "NaN", or a sign and a magnitude in hundredths. */
  datatype Fixed = NotFinite | Fixed(negative: bool, cents: nat)

  /** The nearest integer, ties going up. */
  function RoundHalfUp(x: real): (n: nat)
    requires x >= 0.0
    ensures n as real - 0.5 <= x < n as real + 0.5
  {
    (x + 0.5).Floor
  }

  /** `x.toFixed(2)`: the sign is that of `x`, the magnitude is rounded to the
      nearest hundredth with ties going up. */
  function ToFixed2(n: Number): (f: Fixed)
    ensures n.NaN? <==> f.NotFinite?
    ensures n.Num? ==> (f.negative <==> n.value < 0.0)
    ensures n.Num? && n.value >= 0.0 ==> f.cents as real - 0.5 <= n.value * 100.0 < f.cents as real + 0.5
    ensures n.Num? && n.value < 0.0 ==> f.cents as real - 0.5 <= -n.value * 100.0 < f.cents as real + 0.5
  {
    match n
    case NaN => NotFinite
    case Num(v) => if v < 0.0 then Fixed(true, RoundHalfUp(-v * 100.0)) else Fixed(false, RoundHalfUp(v * 100.0))
  }

  /** The text `toFixed(2)` produces: "NaN", or `-`?, the integer part, `.`, two digits. */
  function RenderFixed(f: Fixed): (r: string)
    ensures f.NotFinite? ==> !exists k :: 0 <= k < |r| && IsDigit(r[k])
    ensures f.Fixed? ==> |r| >= 4 && r[|r| - 3] == '.' && AllDigits(r[|r| - 2..])
    ensures f.Fixed? ==> (r[0] == '-' <==> f.negative)
  {
    match f
    case NotFinite => "NaN"
    case Fixed(neg, c) =>
      (if neg then "-" else "") + NatToString(c / 100) + "." + CentDigits(c)
  }

  /** The number a `Fixed` stands for. */
  function FixedValue(f: Fixed): Number {
    match f
    case NotFinite => NaN
    case Fixed(neg, c) => Num(if neg then -(c as real) / 100.0 else c as real / 100.0)
  }

  /** The two fraction digits `toFixed(2)` prints for a magnitude of `c` hundredths. */
  function CentDigits(c: nat): (ds: string)
    ensures |ds| == 2 && AllDigits(ds)
  {
    [DigitChar(c / 10 % 10), DigitChar(c % 10)]
  }

  lemma CentDigitsValue(c: nat)
    ensures DigitsValue(CentDigits(c)) == c % 100
  {
    var ds := CentDigits(c);
    var r := c % 100;
    assert c / 10 % 10 == r / 10 && c % 10 == r % 10 by {
      var q := c / 100;
      assert c == 100 * q + r;
      assert c / 10 == 10 * q + r / 10;
    }
    assert DigitsValue(ds[..1]) == r / 10 by {
      assert ds[..1][..0] == [];
    }
    assert DigitsValue(ds) == r / 10 * 10 + r % 10;
  }

  lemma CentsDecimalValue(c: nat)
    ensures DecimalValue(NatToString(c / 100), CentDigits(c)) == c as real / 100.0
  {
    NatToStringValue(c / 100);
    CentDigitsValue(c);
    assert Pow10(2) == 100;
    var q := c / 100;
    var d := c % 100;
    assert c == q * 100 + d;
    assert (q as real) + (d as real) / 100.0 == (c as real) / 100.0;
  }

  /** `parseFloat` reads back exactly the value `toFixed(2)` rendered. */
  lemma ParseRenderedFixed(f: Fixed)
    ensures ParseFloat(RenderFixed(f)) == FixedValue(f)
  {
    match f
    case NotFinite =>
      var s := "NaN";
      RunEndIs(s, 0, Digit, 0);
    case Fixed(neg, c) =>
      var body := NatToString(c / 100) + "." + CentDigits(c);
      ParseRenderedCents(c);
      if neg {
        assert RenderFixed(f) == "-" + body;
        ParseFloatMinus(body);
      } else {
        assert RenderFixed(f) == body;
      }
  }

  /** The unsigned rendering of `c` hundredths reads back as `c / 100`. */
  lemma ParseRenderedCents(c: nat)
    ensures var body := NatToString(c / 100) + "." + CentDigits(c);
            |body| > 0 && IsDigit(body[0]) && ParseFloat(body) == Num(c as real / 100.0)
  {
    var whole := NatToString(c / 100);
    ParseDecimal(whole, CentDigits(c));
    CentsDecimalValue(c);
    assert (whole + "." + CentDigits(c))[0] == whole[0];
  }

  /** `parseFloat` of text that does not start with a minus sign is NaN or non-negative. */
  lemma ParseFloatUnsigned(s: string)
    requires |s| == 0 || s[0] != '-'
    ensures ParseFloat(s).NaN? || ParseFloat(s).value >= 0.0
  {
  }

  /** The amount normalisation never introduces a minus sign. */
  lemma NormaliseAmountUnsigned(s: string)
    requires '-' !in s
    ensures '-' !in NormaliseAmount(s)
  {
    var t := RemoveAll(s, '.');
    assert '-' !in t;
    ReplaceFirstKeepsOut(t, ',', '.', '-');
  }

  /** Negating a positive rendered amount and rendering it again only adds a
      minus sign: `toFixed(2)` loses nothing on a value it produced itself. */
  lemma NegatePositiveFixed(c: nat)
    requires c > 0
    ensures ToFixed2(Negate(FixedValue(Fixed(false, c)))) == Fixed(true, c)
    ensures RenderFixed(Fixed(true, c)) == "-" + RenderFixed(Fixed(false, c))
  {
    var n := RoundHalfUp(c as real / 100.0 * 100.0);
    assert c as real / 100.0 * 100.0 == c as real;
    assert n == c;
    assert "" + NatToString(c / 100) == NatToString(c / 100);
  }

  /** A number at most zero renders to text that reads back as at most zero. */
  lemma FixedNotPositive(n: Number)
    requires n.NaN? || n.value <= 0.0
    ensures ParseFloat(RenderFixed(ToFixed2(n))).NaN? || ParseFloat(RenderFixed(ToFixed2(n))).value <= 0.0
  {
    ParseRenderedFixed(ToFixed2(n));
    if n.Num? && n.value == 0.0 {
      assert ToFixed2(n) == Fixed(false, 0);
    }
  }
}

=== FILE: receipt.dfy ===
/** `parseReceiptText` (pages/api/process-receipt.js): the second receipt
    parser, which fills a flat object field by field from the OCR text of a
    BCA card slip. Every key of that object is modelled as a `Field`, so the
    difference between a key left unset and a key set to `null` survives. */
module Receipt {
  import opened Chars
  import opened Scan
  import opened Text
  import opened Decimal
  import opened ReceiptFields

  /** A key of the result object: never set, set to `null`, or set to a value. */
  datatype Field<+T> = Absent | Null | Present(value: T)

  /** `extract(regex)`: the first group of the leftmost match, trimmed, or `null`. */
  function Extract(m: (string, nat) -> Option<string>, text: string): (r: Field<string>)
    ensures !r.Absent?
    ensures r.Null? <==> forall q :: 0 <= q <= |text| ==> m(text, q).None?
  {
    match Leftmost(m, text, 0)
    case Some(h) => Present(Trim(h.capture))
    case None => Null
  }

  /** What `extract` returns is the trimmed group of the leftmost match. */
  lemma ExtractLeftmost(m: (string, nat) -> Option<string>, text: string)
    ensures Extract(m, text).Present? ==>
              exists q :: 0 <= q <= |text| && m(text, q).Some? && Extract(m, text).value == Trim(m(text, q).value)
                && forall k :: 0 <= k < q ==> m(text, k).None?
  {
    var h := Leftmost(m, text, 0);
    if h.Some? {
      assert m(text, h.value.at) == Some(h.value.capture);
    }
  }

  // --------------------------------------------------------- merchant name

  /** The loop's skip test on a trimmed line: empty, `BCA` in any case, or
      mentioning `GRUPECA`. */
  predicate Skipped(c: string) {
    |c| == 0 || ToUpper(c) == "BCA" || IncludesIgnoreCase(c, "GRUPECA")
  }

  /** A line the loop does not skip. */
  predicate IsNameCandidate(line: string) {
    !Skipped(Trim(line))
  }

  /** The clean-up of the chosen line: the `MID` prefix and a trailing
      `DATE:` clause are cut off, and the rest is trimmed. */
  function CleanName(c: string): (r: string)
    ensures |r| <= |c|
  {
    Trim(StripDateSuffix(StripMidPrefix(c)))
  }

  /** The reference reading of the merchant loop: the first line that is not
      skipped, cleaned; the key stays unset when every line is skipped. */
  function MerchantNameOf(lines: seq<string>): (r: Field<string>)
    ensures !r.Null?
    ensures r.Absent? <==> forall k :: 0 <= k < |lines| ==> !IsNameCandidate(lines[k])
  {
    match FirstWhere(lines, 0, IsNameCandidate)
    case Some(k) => Present(CleanName(Trim(lines[k])))
    case None => Absent
  }

  /** The name comes from the first candidate line and from no other. */
  lemma MerchantNameFromFirst(lines: seq<string>, k: nat)
    requires k < |lines| && IsNameCandidate(lines[k])
    requires forall j :: 0 <= j < k ==> !IsNameCandidate(lines[j])
    ensures MerchantNameOf(lines) == Present(CleanName(Trim(lines[k])))
  {
    var f := FirstWhere(lines, 0, IsNameCandidate);
    assert f.Some?;
    assert f.value == k;
  }

  /** The source's loop: it visits every line, skips the uninteresting ones,
      and records a name only while none has been found. */
  method ResolveMerchantName(lines: seq<string>) returns (name: Field<string>)
    ensures name == MerchantNameOf(lines)
  {
    name := Absent;
    var found := false;
    ghost var first := 0;
    var i := 0;
    while i < |lines|
      invariant 0 <= i <= |lines|
      invariant !found ==> name == Absent && forall k :: 0 <= k < i ==> !IsNameCandidate(lines[k])
      invariant found ==> first < i && IsNameCandidate(lines[first])
                          && (forall k :: 0 <= k < first ==> !IsNameCandidate(lines[k]))
                          && name == Present(CleanName(Trim(lines[first])))
    {
      var candidate := Trim(lines[i]);
      if Skipped(candidate) {
        i := i + 1;
        continue;
      }
      if !found {
        candidate := StripMidPrefix(candidate);
        candidate := StripDateSuffix(candidate);
        name := Present(Trim(candidate));
        found := true;
        first := i;
      }
      i := i + 1;
    }
    if found {
      MerchantNameFromFirst(lines, first);
    }
  }

  /** A line with neither a `MID` prefix nor a `DATE:` clause gives its
      trimmed self as the name. */
  lemma CleanNamePlain(line: string)
    requires !LitAt(Trim(line), 0, "MID")
    requires forall p :: 0 <= p <= |Trim(line)| ==> !DateSuffixAt(Trim(line), p)
    ensures CleanName(Trim(line)) == Trim(line)
  {
    TrimIdempotent(line);
  }

  /** The `MID` prefix pattern ends after the spaces that follow the last
      dash of the id run. */
  lemma MidPrefixEndAt(s: string, d: nat, e: nat)
    requires 5 <= d < e <= |s| && s[d] == '-'
    requires LitAt(s, 0, "MID") && s[3] == ':'
    requires forall i :: 4 <= i < e ==> InClass(s[i], MidChar)
    requires e == |s| || !InClass(s[e], MidChar)
    requires forall i :: d < i < e ==> IsSpace(s[i])
    ensures MidPrefixEnd(s) == Some(e)
  {
    RunEndIs(s, 3, Space, 3);
    RunEndIs(s, 4, MidChar, e);
    assert LastDash(s, 5, e) == Some(d) by {
      assert forall k :: d < k < e ==> s[k] != '-';
    }
    RunEndIs(s, d + 1, Space, e);
  }

  /** `MID:<digits, spaces, dashes>-<spaces><name>` loses everything up to the
      name: the cut is made after the last dash of the id run. */
  lemma MidPrefixRemoved(ids: string, gap: string, rest: string)
    requires |ids| > 0 && AllIn(ids, MidChar)
    requires AllSpace(gap) && '-' !in gap
    requires |rest| == 0 || !InClass(rest[0], MidChar)
    ensures StripMidPrefix("MID:" + ids + "-" + gap + rest) == rest
  {
    var s := "MID:" + ids + "-" + gap + rest;
    var d := 4 + |ids|;
    var e := d + 1 + |gap|;
    assert s[..3] == "MID";
    assert forall i :: 4 <= i < d ==> s[i] == ids[i - 4];
    assert forall i :: d + 1 <= i < e ==> s[i] == gap[i - d - 1];
    assert e == |s| || s[e] == rest[0];
    MidPrefixEndAt(s, d, e);
    assert s[e..] == rest;
  }

  // -------------------------------------------------------------------- ids

  /** The terminal and merchant ids: both from the combined pattern when it
      matches anywhere (not trimmed), else each from its own pattern
      (trimmed) or `null`. */
  function Ids(text: string): (r: (Field<string>, Field<string>))
    ensures !r.0.Absent? && !r.1.Absent?
    ensures (exists p :: 0 <= p <= |text| && CombinedIdsAt(text, p).Some?) ==> r.0.Present? && r.1.Present?
    ensures FirstCapture(CombinedIdsAt, text).Some? ==>
              r == (Present(FirstCapture(CombinedIdsAt, text).value.0), Present(FirstCapture(CombinedIdsAt, text).value.1))
    ensures FirstCapture(CombinedIdsAt, text).None? ==> r == (Extract(TerminalAt, text), Extract(MerchantAt, text))
  {
    match FirstCapture(CombinedIdsAt, text)
    case Some(ids) => (Present(ids.0), Present(ids.1))
    case None => (Extract(TerminalAt, text), Extract(MerchantAt, text))
  }

  /** Either way an id is a non-empty run of ASCII letters and digits: the
      `trim` of the fallback has nothing to remove. */
  lemma IdsAlphaNum(text: string)
    ensures Ids(text).0.Present? ==> |Ids(text).0.value| > 0 && AllIn(Ids(text).0.value, AlphaNum)
    ensures Ids(text).1.Present? ==> |Ids(text).1.value| > 0 && AllIn(Ids(text).1.value, AlphaNum)
  {
    var c := Leftmost(CombinedIdsAt, text, 0);
    if c.Some? {
      assert CombinedIdsAt(text, c.value.at) == Some(c.value.capture);
    } else {
      var t := Leftmost(TerminalAt, text, 0);
      if t.Some? {
        assert TerminalAt(text, t.value.at) == Some(t.value.capture);
        TrimAlphaNum(t.value.capture);
      }
      var m := Leftmost(MerchantAt, text, 0);
      if m.Some? {
        assert MerchantAt(text, m.value.at) == Some(m.value.capture);
        TrimAlphaNum(m.value.capture);
      }
    }
  }

  /** Where the combined pattern matches, each single pattern matches too. */
  lemma CombinedMatchesSingles(s: string, p: nat)
    requires CombinedIdsAt(s, p).Some?
    ensures TerminalAt(s, p) == Some(CombinedIdsAt(s, p).value.0)
    ensures exists c :: p <= c <= |s| && MerchantAt(s, c) == Some(CombinedIdsAt(s, p).value.1)
  {
    var a := TermLabelEnd(s, p).value;
    var g1 := AlnumAfter(s, a).value;
    var c := SpacesEnd(s, g1.1);
    assert MerchantAt(s, c) == Some(CombinedIdsAt(s, p).value.1);
  }

  /** An id is `null` exactly when its own pattern matches nowhere: the
      fallback never loses an id the combined pattern would have found. */
  lemma IdsNullExactly(text: string)
    ensures Ids(text).0.Null? <==> forall q :: 0 <= q <= |text| ==> TerminalAt(text, q).None?
    ensures Ids(text).1.Null? <==> forall q :: 0 <= q <= |text| ==> MerchantAt(text, q).None?
  {
    var h := Leftmost(CombinedIdsAt, text, 0);
    if h.Some? {
      assert CombinedIdsAt(text, h.value.at).Some?;
      CombinedMatchesSingles(text, h.value.at);
    }
  }

  // ---------------------------------------------------------------- address

  /** `merchant_address`: the first `JL` line, else the first `Jalan` line,
      else `null`. */
  function Address(text: string): (r: Field<string>)
    ensures !r.Absent?
    ensures (exists p :: 0 <= p <= |text| && JlAddressAt(text, p).Some?) ==> r == Extract(JlAddressAt, text)
    ensures (forall p :: 0 <= p <= |text| ==> JlAddressAt(text, p).None?) ==> r == Extract(JalanAddressAt, text)
  {
    JlAddressNonEmpty(text);
    var a := Extract(JlAddressAt, text);
    if a.Present? && |a.value| > 0 then a else Extract(JalanAddressAt, text)
  }

  /** A `JL` capture starts with a letter, so its trimmed form is never empty:
      the `||` of the source falls through to `Jalan` only on `null`. */
  lemma JlAddressNonEmpty(text: string)
    ensures Extract(JlAddressAt, text).Present? ==> |Extract(JlAddressAt, text).value| > 0
  {
    var h := Leftmost(JlAddressAt, text, 0);
    if h.Some? {
      assert JlAddressAt(text, h.value.at) == Some(h.value.capture);
      TrimNonBlank(h.value.capture);
    }
  }

  // -------------------------------------------------------------- date/time

  /** A calendar date in the proleptic Gregorian calendar. */
  datatype CalendarDate = CalendarDate(year: int, month: nat, day: nat)

  predicate IsLeapYear(y: int) {
    y % 4 == 0 && (y % 100 != 0 || y % 400 == 0)
  }

  function DaysInMonth(y: int, m: nat): (n: nat)
    requires 1 <= m <= 12
    ensures 28 <= n <= 31
  {
    if m == 2 then (if IsLeapYear(y) then 29 else 28)
    else if m == 4 || m == 6 || m == 9 || m == 11 then 30
    else 31
  }

  predicate ValidDate(d: CalendarDate) {
    1 <= d.month <= 12 && 1 <= d.day <= DaysInMonth(d.year, d.month)
  }

  /** `date.setFullYear(y)`: the same month and day in year `y`, except that
      29 February of a year without one rolls over to 1 March. */
  function WithYear(d: CalendarDate, y: int): (r: CalendarDate)
    ensures r.year == y
    ensures ValidDate(d) ==> ValidDate(r)
    ensures !(d.month == 2 && d.day == 29) || IsLeapYear(y) ==> r.month == d.month && r.day == d.day
  {
    if d.month == 2 && d.day == 29 && !IsLeapYear(y) then CalendarDate(y, 3, 1)
    else CalendarDate(y, d.month, d.day)
  }

  /** The century correction: a year before 2000 is moved a hundred years on. */
  function CenturyCorrected(d: CalendarDate): (r: CalendarDate)
    ensures d.year < 2000 ==> r.year == d.year + 100
    ensures d.year >= 2000 ==> r == d
    ensures ValidDate(d) ==> ValidDate(r)
  {
    if d.year < 2000 then WithYear(d, d.year + 100) else d
  }

  /** A two-digit year read as 19xx lands in 20xx, and correcting it again
      changes nothing. */
  lemma CenturyCorrectedTwentyFirst(d: CalendarDate)
    requires 1900 <= d.year
    ensures 2000 <= CenturyCorrected(d).year
    ensures CenturyCorrected(CenturyCorrected(d)) == CenturyCorrected(d)
  {
  }

  /** A correction keeps the month and day, except for 29 February of a leap
      year whose successor a century on has none. */
  lemma CenturyCorrectedKeepsDay(d: CalendarDate)
    requires d.year < 2000 && ValidDate(d)
    ensures IsLeapYear(d.year + 100) || !(d.month == 2 && d.day == 29) ==>
              CenturyCorrected(d).month == d.month && CenturyCorrected(d).day == d.day
    ensures d.month == 2 && d.day == 29 && !IsLeapYear(d.year + 100) ==>
              CenturyCorrected(d) == CalendarDate(d.year + 100, 3, 1)
  {
  }

  /** `transaction_date` and `transaction_time`. `construct` stands for
      `new Date(text)`, `None` being an invalid date, on which `toISOString`
      throws and both keys become `null`. Both stay unset when the pattern
      matches nowhere. */
  function DateTimeFields(text: string, construct: string -> Option<CalendarDate>): (r: (Field<CalendarDate>, Field<string>))
    ensures r.0.Absent? <==> r.1.Absent?
    ensures r.0.Null? <==> r.1.Null?
    ensures r.0.Absent? <==> forall p :: 0 <= p <= |text| ==> DateTimeAt(text, p).None?
    ensures r.1.Present? ==> |r.1.value| == 5 && ClockAt(r.1.value, 0)
    ensures Leftmost(DateTimeAt, text, 0).Some? ==>
              (r.0.Null? <==> construct(RemoveFirst(Leftmost(DateTimeAt, text, 0).value.capture.date, ',')).None?)
    ensures r.1.Present? ==> r.1.value == Leftmost(DateTimeAt, text, 0).value.capture.time
  {
    match Leftmost(DateTimeAt, text, 0)
    case None => (Absent, Absent)
    case Some(h) =>
      assert DateTimeAt(text, h.at) == Some(h.capture);
      match construct(RemoveFirst(h.capture.date, ','))
      case None => (Null, Null)
      case Some(d) => (Present(CenturyCorrected(d)), Present(h.capture.time))
  }

  /** When the date is built, the stored date is the built date corrected;
      no stored date lies before 2000 unless the built one lay before 1900. */
  lemma DateTimeCorrected(text: string, construct: string -> Option<CalendarDate>)
    ensures DateTimeFields(text, construct).0.Present? ==>
              exists p, d :: 0 <= p <= |text| && DateTimeAt(text, p).Some?
                && construct(RemoveFirst(DateTimeAt(text, p).value.date, ',')) == Some(d)
                && DateTimeFields(text, construct).0.value == CenturyCorrected(d)
                && (d.year >= 1900 ==> DateTimeFields(text, construct).0.value.year >= 2000)
  {
    var h := Leftmost(DateTimeAt, text, 0);
    if h.Some? {
      var p := h.value.at;
      assert DateTimeAt(text, p) == Some(h.value.capture);
      var built := construct(RemoveFirst(h.value.capture.date, ','));
      if built.Some? {
        var d := built.value;
        var stored := DateTimeFields(text, construct).0.value;
        assert stored == CenturyCorrected(d);
        if d.year >= 1900 {
          CenturyCorrectedTwentyFirst(d);
        }
        assert 0 <= p <= |text| && DateTimeAt(text, p).Some?
          && construct(RemoveFirst(DateTimeAt(text, p).value.date, ',')) == Some(d)
          && stored == CenturyCorrected(d)
          && (d.year >= 1900 ==> stored.year >= 2000);
      }
    }
  }

  // ------------------------------------------------------------------ card

  /** The twelve stars the card number is padded with. */
  const CardMask: string := "************"

  /** `payment_card_number`: twelve stars and the four digits after the
      leftmost run of eight or more stars, else `null`. */
  function CardNumber(text: string): (r: Field<string>)
    ensures !r.Absent?
    ensures r.Null? <==> forall p :: 0 <= p <= |text| ==> CardDigitsAt(text, p).None?
    ensures r.Present? ==> |r.value| == 16 && r.value[..12] == CardMask && AllIn(r.value[12..], Digit)
    ensures r.Present? ==> r.value == CardMask + Extract(CardDigitsAt, text).value
  {
    var c := Extract(CardDigitsAt, text);
    CardDigitsShape(text);
    if c.Present? && |c.value| > 0 then
      var v := CardMask + c.value;
      assert v[..12] == CardMask;
      assert v[12..] == c.value;
      Present(v)
    else c
  }

  /** The group `extract` takes for the card holds exactly four digits, which
      `trim` leaves alone. */
  lemma CardDigitsShape(text: string)
    ensures Extract(CardDigitsAt, text).Present? ==> |Extract(CardDigitsAt, text).value| == 4 && AllIn(Extract(CardDigitsAt, text).value, Digit)
  {
    var h := Leftmost(CardDigitsAt, text, 0);
    if h.Some? {
      assert CardDigitsAt(text, h.value.at) == Some(h.value.capture);
      TrimNoSpace(h.value.capture);
    }
  }

  // --------------------------------------------------------------- software

  /** `software_code` and `software_type`: both groups of the leftmost match
      as they stand, or both keys unset. */
  function SoftwareFields(text: string): (r: (Field<string>, Field<string>))
    ensures !r.0.Null? && !r.1.Null?
    ensures r.0.Present? <==> r.1.Present?
    ensures r.0.Present? <==> exists p :: 0 <= p <= |text| && SoftwareAt(text, p).Some?
    ensures r.0.Present? ==> |r.0.value| > 0 && AllIn(r.0.value, AlphaNum)
    ensures r.1.Present? ==> |r.1.value| > 3 && EqualsIgnoreCase(r.1.value[..3], "ANS")
    ensures FirstCapture(SoftwareAt, text).Some? ==>
              r == (Present(FirstCapture(SoftwareAt, text).value.code), Present(FirstCapture(SoftwareAt, text).value.kind))
  {
    match FirstCapture(SoftwareAt, text)
    case Some(sw) => (Present(sw.code), Present(sw.kind))
    case None => (Absent, Absent)
  }

  // ------------------------------------------------------------------ total

  /** The number `parseFloat` reads from the `TOTAL` group once the currency
      prefix is cut out, the dots are dropped and the first comma becomes the
      decimal point. */
  function TotalNumber(g: string): (r: Number)
    ensures '-' !in g ==> r.NaN? || r.value >= 0.0
  {
    assert '-' !in g ==> '-' !in NormaliseAmount(StripCurrency(g)) by {
      if '-' !in g {
        StripCurrencyKeepsOut(g, '-');
        NormaliseAmountUnsigned(StripCurrency(g));
      }
    }
    ParseFloat(NormaliseAmount(StripCurrency(g)))
  }

  /** Cutting the currency prefix off a `TOTAL` group `Rp.<spaces><amount>`
      leaves the amount. */
  lemma CurrencyPrefixOf(sp: string, rest: string)
    requires AllSpace(sp) && |rest| > 0 && !IsSpace(rest[0])
    ensures StripCurrency("Rp." + sp + rest) == rest
  {
    var g := "Rp." + sp + rest;
    var e := 3 + |sp|;
    assert g[..2] == "Rp";
    assert g[2] == '.';
    assert forall i :: 3 <= i < e ==> g[i] == sp[i - 3];
    assert g[e] == rest[0];
    RunEndIs(g, 3, Space, e);
    assert CurrencyPrefixAt(g, 0) == Some(e);
    assert g[e..] == rest;
  }

  /** A `TOTAL` group such as `Rp. 15.000,50` is worth the decimal its digits
      spell: the prefix goes, the dots go, the comma becomes the decimal point. */
  lemma TotalNumberLocale(sp: string, whole: string, frac: string)
    requires AllSpace(sp)
    requires forall i :: 0 <= i < |whole| ==> IsDigit(whole[i]) || whole[i] == '.'
    requires AllDigits(frac)
    requires |RemoveAll(whole, '.')| > 0 || |frac| > 0
    ensures AllDigits(RemoveAll(whole, '.'))
    ensures TotalNumber("Rp." + sp + (whole + "," + frac)) == Num(DecimalValue(RemoveAll(whole, '.'), frac))
  {
    var rest := whole + "," + frac;
    assert rest[0] == (if |whole| > 0 then whole[0] else ',');
    CurrencyPrefixOf(sp, rest);
    ParseLocaleAmount(whole, frac);
  }

  /** When the leftmost `TOTAL` group reads `Rp.<spaces><dot-grouped>,<digits>`,
      the total is that decimal rounded to hundredths, whatever the fallback says. */
  lemma TotalFixedLocale(text: string, sp: string, whole: string, frac: string)
    requires AllSpace(sp)
    requires forall i :: 0 <= i < |whole| ==> IsDigit(whole[i]) || whole[i] == '.'
    requires AllDigits(frac)
    requires |RemoveAll(whole, '.')| > 0 || |frac| > 0
    requires FirstCapture(TotalAt, text) == Some("Rp." + sp + (whole + "," + frac))
    ensures AllDigits(RemoveAll(whole, '.'))
    ensures TotalFixed(text) == Some(ToFixed2(Num(DecimalValue(RemoveAll(whole, '.'), frac))))
  {
    TotalNumberLocale(sp, whole, frac);
  }

  /** Amount text holds neither sign character. */
  lemma AmountUnsigned(a: string)
    requires AllIn(a, AmountChar)
    ensures '-' !in a && '+' !in a
  {
    forall i | 0 <= i < |a| ensures a[i] != '-' && a[i] != '+' {
      assert InClass(a[i], AmountChar);
    }
  }

  /** Any `TOTAL` group is worth what its amount normalises to, negated when
      the group starts with the optional minus sign: the prefix `Rp`, in either
      letter case, with or without its dot, contributes nothing. */
  lemma TotalNumberSigned(sign: string, rp: string, dot: string, sp: string, amount: string)
    requires SignedCurrencyGroup(sign, rp, dot, sp, amount)
    ensures var v := ParseFloat(NormaliseAmount(amount));
            TotalNumber(sign + rp + dot + sp + amount) == if sign == "-" then Negate(v) else v
  {
    var am := amount[AmountSkip(dot, sp, amount)..];
    StripCurrencySigned(sign, rp, dot, sp, amount);
    assert RemoveAll(am, '.') == RemoveAll(amount, '.') by {
      if AmountSkip(dot, sp, amount) == 1 {
        assert amount[0] == '.' && am == amount[1..];
      }
    }
    var t := NormaliseAmount(am);
    assert t == NormaliseAmount(amount);
    if sign == "-" {
      assert AllIn(am, AmountChar);
      AmountUnsigned(am);
      NormaliseAmountMinus(am);
      NormaliseAmountKeepsOut(am, '-');
      NormaliseAmountKeepsOut(am, '+');
      if |t| > 0 {
        ParseFloatMinus(t);
      } else {
        assert "-" + t == "-";
        assert ParseFloat("-") == Negate(ParseUnsigned(""));
      }
    } else {
      assert sign + am == am;
    }
  }

  /** A comma-free `TOTAL` group such as `Rp. 150.000` is worth its digits as
      an integer, with the captured sign. */
  lemma TotalNumberInteger(sign: string, rp: string, dot: string, sp: string, whole: string)
    requires SignedCurrencyGroup(sign, rp, dot, sp, whole) && ',' !in whole
    ensures AllDigits(RemoveAll(whole, '.'))
    ensures var w := RemoveAll(whole, '.');
            var v := if |w| == 0 then NaN else Num(DigitsValue(w) as real);
            TotalNumber(sign + rp + dot + sp + whole) == if sign == "-" then Negate(v) else v
  {
    assert forall i :: 0 <= i < |whole| ==> IsDigit(whole[i]) || whole[i] == '.' by {
      forall i | 0 <= i < |whole| ensures IsDigit(whole[i]) || whole[i] == '.' {
        assert InClass(whole[i], AmountChar) && whole[i] != ',';
      }
    }
    ParseLocaleInteger(whole);
    TotalNumberSigned(sign, rp, dot, sp, whole);
  }

  /** A `TOTAL` group with a comma, such as `-Rp 5.000,00`: the dot-free digits
      before the first comma are the integer part, those up to a second comma
      the fraction, with the captured sign. */
  lemma TotalNumberComma(sign: string, rp: string, dot: string, sp: string, whole: string, frac: string, rest: string)
    requires SignedCurrencyGroup(sign, rp, dot, sp, whole + "," + frac + rest)
    requires forall i :: 0 <= i < |whole| ==> IsDigit(whole[i]) || whole[i] == '.'
    requires forall i :: 0 <= i < |frac| ==> IsDigit(frac[i]) || frac[i] == '.'
    requires |rest| == 0 || rest[0] == ','
    ensures AllDigits(RemoveAll(whole, '.')) && AllDigits(RemoveAll(frac, '.'))
    ensures var w := RemoveAll(whole, '.');
            var f := RemoveAll(frac, '.');
            var v := if |w| == 0 && |f| == 0 then NaN else Num(DecimalValue(w, f));
            TotalNumber(sign + rp + dot + sp + (whole + "," + frac + rest)) == if sign == "-" then Negate(v) else v
  {
    ParseLocaleAmountRest(whole, frac, rest);
    TotalNumberSigned(sign, rp, dot, sp, whole + "," + frac + rest);
  }

  /** The worked total `TOTAL Rp. 150.000`: dots group thousands. */
  lemma TotalExampleInteger()
    ensures TotalNumber("" + "Rp" + "." + " " + "150.000") == Num(150000.0)
  {
    assert SignedCurrencyGroup("", "Rp", ".", " ", "150.000");
    assert RemoveAll("150.000", '.') == "150000";
    var ds := "150000";
    assert DigitsValue(ds) == 150000 by {
      assert DigitsValue("1") == 1 by { assert "1"[..0] == ""; }
      DigitsValueSnoc("1", '5');
      assert "1" + ['5'] == "15";
      DigitsValueSnoc("15", '0');
      assert "15" + ['0'] == "150";
      DigitsValueSnoc("150", '0');
      assert "150" + ['0'] == "1500";
      DigitsValueSnoc("1500", '0');
      assert "1500" + ['0'] == "15000";
      DigitsValueSnoc("15000", '0');
      assert "15000" + ['0'] == ds;
    }
    TotalNumberInteger("", "Rp", ".", " ", "150.000");
  }

  /** The worked total `TOTAL -RP 5.000,00`: an upper-case `RP` without a dot,
      and the captured minus sign. */
  lemma TotalExampleNegative()
    ensures TotalNumber("-" + "RP" + "" + " " + ("5.000" + "," + "00" + "")) == Num(-5000.0)
  {
    var d := DecimalValue("5000", "00");
    assert d == 5000.0 by {
      var ds := "5000";
      assert DigitsValue(ds) == 5000 by {
        assert DigitsValue("5") == 5 by { assert "5"[..0] == ""; }
        DigitsValueSnoc("5", '0');
        assert "5" + ['0'] == "50";
        DigitsValueSnoc("50", '0');
        assert "50" + ['0'] == "500";
        DigitsValueSnoc("500", '0');
        assert "500" + ['0'] == ds;
      }
      assert DigitsValue("00") == 0 by { assert "00"[..1] == "0" && "0"[..0] == ""; }
    }
    assert RemoveAll("5.000", '.') == "5000";
    assert RemoveAll("00", '.') == "00";
    assert SignedCurrencyGroup("-", "RP", "", " ", "5.000" + "," + "00" + "");
    TotalNumberComma("-", "RP", "", " ", "5.000", "00", "");
  }

  /** The void fallback: the amount after the leftmost `-Rp`, negated. */
  function FallbackFixed(text: string): (r: Option<Fixed>)
    ensures r.Some? <==> exists p :: 0 <= p <= |text| && NegativeAmountAt(text, p).Some?
    ensures FirstCapture(NegativeAmountAt, text).Some? ==>
              r == Some(ToFixed2(Negate(ParseFloat(NormaliseAmount(FirstCapture(NegativeAmountAt, text).value)))))
  {
    match FirstCapture(NegativeAmountAt, text)
    case Some(a) => Some(ToFixed2(Negate(ParseFloat(NormaliseAmount(a)))))
    case None => None
  }

  /** The `toFixed(2)` outcome of the total section before the `VOID` check:
      the `TOTAL` pattern first, else the fallback. */
  function TotalFixed(text: string): (r: Option<Fixed>)
    ensures r.Some? <==> (exists p :: 0 <= p <= |text| && TotalAt(text, p).Some?)
                         || (exists p :: 0 <= p <= |text| && NegativeAmountAt(text, p).Some?)
    ensures (forall p :: 0 <= p <= |text| ==> TotalAt(text, p).None?) ==> r == FallbackFixed(text)
    ensures FirstCapture(TotalAt, text).Some? ==> r == Some(ToFixed2(TotalNumber(FirstCapture(TotalAt, text).value)))
  {
    match FirstCapture(TotalAt, text)
    case Some(g) => Some(ToFixed2(TotalNumber(g)))
    case None => FallbackFixed(text)
  }

  /** When the leftmost `TOTAL` group is comma-free, the total is its signed
      integer, rounded to hundredths. */
  lemma TotalFixedInteger(text: string, sign: string, rp: string, dot: string, sp: string, whole: string)
    requires SignedCurrencyGroup(sign, rp, dot, sp, whole) && ',' !in whole
    requires FirstCapture(TotalAt, text) == Some(sign + rp + dot + sp + whole)
    ensures AllDigits(RemoveAll(whole, '.'))
    ensures var w := RemoveAll(whole, '.');
            var v := if |w| == 0 then NaN else Num(DigitsValue(w) as real);
            TotalFixed(text) == Some(ToFixed2(if sign == "-" then Negate(v) else v))
  {
    TotalNumberInteger(sign, rp, dot, sp, whole);
  }

  /** When the leftmost `TOTAL` group has a comma, the total is its signed
      decimal, rounded to hundredths. */
  lemma TotalFixedComma(text: string, sign: string, rp: string, dot: string, sp: string, whole: string, frac: string, rest: string)
    requires SignedCurrencyGroup(sign, rp, dot, sp, whole + "," + frac + rest)
    requires forall i :: 0 <= i < |whole| ==> IsDigit(whole[i]) || whole[i] == '.'
    requires forall i :: 0 <= i < |frac| ==> IsDigit(frac[i]) || frac[i] == '.'
    requires |rest| == 0 || rest[0] == ','
    requires FirstCapture(TotalAt, text) == Some(sign + rp + dot + sp + (whole + "," + frac + rest))
    ensures AllDigits(RemoveAll(whole, '.')) && AllDigits(RemoveAll(frac, '.'))
    ensures var w := RemoveAll(whole, '.');
            var f := RemoveAll(frac, '.');
            var v := if |w| == 0 && |f| == 0 then NaN else Num(DecimalValue(w, f));
            TotalFixed(text) == Some(ToFixed2(if sign == "-" then Negate(v) else v))
  {
    TotalNumberComma(sign, rp, dot, sp, whole, frac, rest);
  }

  /** With no `TOTAL` line and a leftmost `-Rp` amount without a comma, the
      total is that integer negated and rounded. */
  lemma FallbackFixedInteger(text: string, whole: string)
    requires forall i :: 0 <= i < |whole| ==> IsDigit(whole[i]) || whole[i] == '.'
    requires FirstCapture(TotalAt, text).None?
    requires FirstCapture(NegativeAmountAt, text) == Some(whole)
    ensures AllDigits(RemoveAll(whole, '.'))
    ensures var w := RemoveAll(whole, '.');
            TotalFixed(text) == Some(ToFixed2(Negate(if |w| == 0 then NaN else Num(DigitsValue(w) as real))))
  {
    ParseLocaleInteger(whole);
  }

  /** With no `TOTAL` line and a leftmost `-Rp` amount with a comma, such as
      `-Rp 5.000,00`, the total is that decimal negated and rounded. */
  lemma FallbackFixedComma(text: string, whole: string, frac: string, rest: string)
    requires forall i :: 0 <= i < |whole| ==> IsDigit(whole[i]) || whole[i] == '.'
    requires forall i :: 0 <= i < |frac| ==> IsDigit(frac[i]) || frac[i] == '.'
    requires |rest| == 0 || rest[0] == ','
    requires FirstCapture(TotalAt, text).None?
    requires FirstCapture(NegativeAmountAt, text) == Some(whole + "," + frac + rest)
    ensures AllDigits(RemoveAll(whole, '.')) && AllDigits(RemoveAll(frac, '.'))
    ensures var w := RemoveAll(whole, '.');
            var f := RemoveAll(frac, '.');
            TotalFixed(text) == Some(ToFixed2(Negate(if |w| == 0 && |f| == 0 then NaN else Num(DecimalValue(w, f)))))
  {
    ParseLocaleAmountRest(whole, frac, rest);
  }

  /** The fallback's negated amount is never positive: the amount text holds
      no minus sign, so `parseFloat` reads it as NaN or at least zero. */
  lemma NegatedAmountNotPositive(a: string)
    requires AllIn(a, AmountChar)
    ensures var f := ToFixed2(Negate(ParseFloat(NormaliseAmount(a))));
            FixedValue(f).NaN? || FixedValue(f).value <= 0.0
  {
    assert '-' !in a by {
      forall i | 0 <= i < |a|
        ensures a[i] != '-'
      {
        assert InClass(a[i], AmountChar);
      }
    }
    NormaliseAmountUnsigned(a);
    ParseFloatUnsigned(NormaliseAmount(a));
    var n := Negate(ParseFloat(NormaliseAmount(a)));
    if n.Num? && n.value == 0.0 {
      assert ToFixed2(n) == Fixed(false, 0);
    }
  }

  /** The fallback total, used when no `TOTAL` line is found, is never positive. */
  lemma FallbackTotalNotPositive(text: string)
    ensures FallbackFixed(text).Some? ==> FixedValue(FallbackFixed(text).value).NaN? || FixedValue(FallbackFixed(text).value).value <= 0.0
  {
    var h := Leftmost(NegativeAmountAt, text, 0);
    if h.Some? {
      var a := h.value.capture;
      assert NegativeAmountAt(text, h.value.at) == Some(a);
      assert FallbackFixed(text) == Some(ToFixed2(Negate(ParseFloat(NormaliseAmount(a)))));
      NegatedAmountNotPositive(a);
    }
  }

  /** The total text before the `VOID` check, unset when neither pattern matches. */
  function TotalText(text: string): (r: Field<string>)
    ensures !r.Null?
    ensures r.Present? <==> TotalFixed(text).Some?
    ensures r.Present? ==> ParseFloat(r.value) == FixedValue(TotalFixed(text).value)
  {
    match TotalFixed(text)
    case Some(f) =>
      ParseRenderedFixed(f);
      Present(RenderFixed(f))
    case None => Absent
  }

  /** `/VOID/i.test(text)` */
  predicate IsVoid(text: string)
    ensures IsVoid(text) <==> exists k :: 0 <= k <= |text| && LitAt(text, k, "VOID")
  {
    assert ToUpper("VOID") == "VOID";
    IncludesIgnoreCaseAt(text, "VOID");
    IncludesIgnoreCase(text, "VOID")
  }

  /** The `VOID` check: on a void receipt a set, non-empty total that reads
      as a positive number is replaced by its negation, rendered again. */
  function VoidCorrected(text: string, total: Field<string>): (r: Field<string>)
    ensures !IsVoid(text) ==> r == total
    ensures r.Absent? <==> total.Absent?
    ensures r.Null? <==> total.Null?
  {
    if IsVoid(text) && total.Present? && |total.value| > 0
       && ParseFloat(total.value).Num? && ParseFloat(total.value).value > 0.0
    then Present(RenderFixed(ToFixed2(Negate(ParseFloat(total.value)))))
    else total
  }

  /** On a void receipt a positive total gains a minus sign and nothing else. */
  lemma VoidPrefixesMinus(text: string, c: nat)
    requires IsVoid(text) && c > 0
    ensures VoidCorrected(text, Present(RenderFixed(Fixed(false, c)))) == Present("-" + RenderFixed(Fixed(false, c)))
  {
    ParseRenderedFixed(Fixed(false, c));
    NegatePositiveFixed(c);
  }

  // ------------------------------------------------------------- line items

  /** One simulated line item. */
  datatype LineItem = LineItem(description: string, amount: Number)

  /** `line_items`: a single item named after the receipt kind whose amount
      is the total read back, or 0 when no total was set. */
  function LineItems(text: string, total: Field<string>): (r: seq<LineItem>)
    ensures |r| == 1
    ensures r[0].description == (if IsVoid(text) then "VOID" else "TOTAL")
    ensures total.Absent? ==> r[0].amount == Num(0.0)
  {
    [LineItem(if IsVoid(text) then "VOID" else "TOTAL",
              if total.Present? && |total.value| > 0 then ParseFloat(total.value) else Num(0.0))]
  }

  // ----------------------------------------------------------------- record

  /** The object `parseReceiptText` returns. */
  datatype ReceiptRecord = ReceiptRecord(
    merchantName: Field<string>,
    terminalId: Field<string>,
    merchantId: Field<string>,
    merchantAddress: Field<string>,
    transactionDate: Field<CalendarDate>,
    transactionTime: Field<string>,
    paymentCardNumber: Field<string>,
    paymentMethod: Field<string>,
    softwareCode: Field<string>,
    softwareType: Field<string>,
    currency: string,
    total: Field<string>,
    lineItems: seq<LineItem>)

  /** `parseReceiptText(text)`, with `construct` standing for `new Date`. */
  function ParseReceiptText(text: string, construct: string -> Option<CalendarDate>): (r: ReceiptRecord)
    ensures r.merchantName == MerchantNameOf(Split(text, '\n'))
    ensures !r.terminalId.Absent? && !r.merchantId.Absent? && !r.merchantAddress.Absent?
    ensures !r.paymentCardNumber.Absent? && !r.paymentMethod.Absent?
    ensures r.transactionDate.Absent? <==> r.transactionTime.Absent?
    ensures r.softwareCode.Absent? <==> r.softwareType.Absent?
    ensures r.currency == "Rp"
    ensures r.total.Present? <==> TotalFixed(text).Some?
    ensures |r.lineItems| == 1 && (r.lineItems[0].description == "VOID" <==> IsVoid(text))
    ensures (r.terminalId, r.merchantId) == Ids(text)
    ensures r.merchantAddress == Address(text)
    ensures (r.transactionDate, r.transactionTime) == DateTimeFields(text, construct)
    ensures r.paymentCardNumber == CardNumber(text)
    ensures r.paymentMethod == Extract(PaymentMethodAt, text)
    ensures (r.softwareCode, r.softwareType) == SoftwareFields(text)
    ensures r.total == VoidCorrected(text, TotalText(text))
    ensures r.lineItems == LineItems(text, r.total)
  {
    var ids := Ids(text);
    var when := DateTimeFields(text, construct);
    var software := SoftwareFields(text);
    var total := VoidCorrected(text, TotalText(text));
    ReceiptRecord(
      MerchantNameOf(Split(text, '\n')),
      ids.0,
      ids.1,
      Address(text),
      when.0,
      when.1,
      CardNumber(text),
      Extract(PaymentMethodAt, text),
      software.0,
      software.1,
      "Rp",
      total,
      LineItems(text, total))
  }

  /** A void receipt never reports a positive total. */
  lemma VoidTotalNotPositive(text: string, construct: string -> Option<CalendarDate>)
    requires IsVoid(text)
    ensures var t := ParseReceiptText(text, construct).total;
            t.Present? ==> ParseFloat(t.value).NaN? || ParseFloat(t.value).value <= 0.0
  {
    var before := TotalText(text);
    if before.Present? && ParseFloat(before.value).Num? && ParseFloat(before.value).value > 0.0 {
      var n := Negate(ParseFloat(before.value));
      FixedNotPositive(n);
    }
  }

  /** The line item carries exactly the number the total text denotes, or 0
      when no total was set. */
  lemma LineItemMatchesTotal(text: string, construct: string -> Option<CalendarDate>)
    ensures var r := ParseReceiptText(text, construct);
            (r.total.Present? ==> exists f :: r.total.value == RenderFixed(f) && r.lineItems[0].amount == FixedValue(f))
            && (r.total.Absent? ==> r.lineItems[0].amount == Num(0.0))
  {
    var before := TotalText(text);
    var after := VoidCorrected(text, before);
    if after.Present? {
      var f := if after == before then TotalFixed(text).value else ToFixed2(Negate(ParseFloat(before.value)));
      assert after.value == RenderFixed(f);
      ParseRenderedFixed(f);
      assert |RenderFixed(f)| > 0;
    }
  }
}

=== FILE: receipt_fields.dfy ===
/** The patterns of `parseReceiptText` (pages/api/process-receipt.js), each
    written as the match the JavaScript backtracking engine finds at one start
    position, in the style of `StrukFields`. */
module ReceiptFields {
  import opened Chars
  import opened Scan
  import opened Text

  // ------------------------------------------------------ merchant clean-up

  /** The last `-` in `s[lo..hi)`, if any. */
  function LastDash(s: string, lo: nat, hi: nat): (r: Option<nat>)
    requires lo <= hi <= |s|
    ensures r.Some? ==> lo <= r.value < hi && s[r.value] == '-'
    ensures r.Some? ==> forall k :: r.value < k < hi ==> s[k] != '-'
    ensures r.None? <==> forall k :: lo <= k < hi ==> s[k] != '-'
    decreases hi - lo
  {
    if hi == lo then None
    else if s[hi - 1] == '-' then Some(hi - 1)
    else LastDash(s, lo, hi - 1)
  }

  /** Where `^MID\s*:\s*[\d\s-]+\s*-\s*` ends when it matches. Everything from
      just after the colon up to the final `-` lies inside one run of
      digits, whitespace and dashes; backtracking settles on the last dash of
      that run that leaves at least one character before it. */
  function MidPrefixEnd(s: string): (r: Option<nat>)
    ensures r.Some? ==> 5 <= r.value <= |s|
  {
    if LitAt(s, 0, "MID") then
      var b := SpacesEnd(s, 3);
      if b < |s| && s[b] == ':' then
        var k := b + 1;
        var e := RunEnd(s, k, MidChar);
        if k + 1 <= e then
          match LastDash(s, k + 1, e)
          case Some(d) => Some(SpacesEnd(s, d + 1))
          case None => None
        else None
      else None
    else None
  }

  /** `line.replace(...)` with the `MID` prefix pattern above: the prefix is cut off. */
  function StripMidPrefix(s: string): (r: string)
    ensures |r| <= |s| && r == s[|s| - |r|..]
    ensures !LitAt(s, 0, "MID") ==> r == s
  {
    match MidPrefixEnd(s)
    case Some(e) => s[e..]
    case None => s
  }

  /** `\s*DATE\s*:.*$` at `p` (no `m` flag, so `.*` must reach the end of the
      text without crossing a line terminator). */
  predicate DateSuffixAt(s: string, p: nat) {
    p <= |s| &&
    var m := SpacesEnd(s, p);
    LitAt(s, m, "DATE") &&
    var c := SpacesEnd(s, m + 4);
    c < |s| && s[c] == ':' && RunEnd(s, c + 1, NotLineTerminator) == |s|
  }

  function DateSuffixMatch(s: string, p: nat): Option<nat> {
    if DateSuffixAt(s, p) then Some(p) else None
  }

  /** `line.replace(/\s*DATE\s*:.*$/i, '')`: cut at the leftmost start of a
      trailing `DATE:` clause. */
  function StripDateSuffix(s: string): (r: string)
    ensures |r| <= |s| && r == s[..|r|]
    ensures (forall p :: 0 <= p <= |s| ==> !DateSuffixAt(s, p)) ==> r == s
    ensures |r| < |s| ==> DateSuffixAt(s, |r|) && forall p :: 0 <= p < |r| ==> !DateSuffixAt(s, p)
  {
    var m := DateSuffixMatch;
    match Leftmost(m, s, 0)
    case Some(h) =>
      assert m(s, h.at).Some?;
      assert forall p :: 0 <= p < h.at ==> m(s, p).None? ==> !DateSuffixAt(s, p);
      s[..h.at]
    case None =>
      assert forall p :: 0 <= p <= |s| ==> m(s, p).None? ==> !DateSuffixAt(s, p);
      s
  }

  // ------------------------------------------------------------------- ids

  /** `<word>#?|<short>` at `p`, for a four-letter word and a three-letter
      abbreviation: where the label ends, `#` taken when present. */
  function LabelEnd(s: string, p: nat, word: string, short: string): (r: Option<nat>)
    requires |word| == 4 && |short| == 3
    ensures r.Some? ==> p + 3 <= r.value <= |s|
  {
    if LitAt(s, p, word + "#") then Some(p + 5)
    else if LitAt(s, p, word) then Some(p + 4)
    else if LitAt(s, p, short) then Some(p + 3)
    else None
  }

  /** `TERM#?|TID` at `p`. */
  function TermLabelEnd(s: string, p: nat): Option<nat> {
    LabelEnd(s, p, "TERM", "TID")
  }

  /** `MERC#?|MID` at `p`. */
  function MercLabelEnd(s: string, p: nat): Option<nat> {
    LabelEnd(s, p, "MERC", "MID")
  }

  /** `\s*([A-Z0-9]+)` after `a`: the bounds of the captured run. */
  function AlnumAfter(s: string, a: nat): (r: Option<(nat, nat)>)
    requires a <= |s|
    ensures r.Some? ==> a <= r.value.0 < r.value.1 <= |s| && AllIn(s[r.value.0..r.value.1], AlphaNum)
    ensures r.Some? ==> r.value.1 == |s| || !IsAlphaNum(s[r.value.1])
  {
    var b := SpacesEnd(s, a);
    var e := RunEnd(s, b, AlphaNum);
    if e > b then Some((b, e)) else None
  }

  /** `(?:TERM#?|TID)\s*([A-Z0-9]+)\s+(?:MERC#?|MID)\s*([A-Z0-9]+)` at `p`:
      the terminal and merchant groups. A shorter terminal run would leave a
      letter or digit where `\s+` needs whitespace, so it is the whole run. */
  function CombinedIdsAt(s: string, p: nat): (r: Option<(string, string)>)
    ensures r.Some? ==> |r.value.0| > 0 && AllIn(r.value.0, AlphaNum) && |r.value.1| > 0 && AllIn(r.value.1, AlphaNum)
  {
    match TermLabelEnd(s, p)
    case None => None
    case Some(a) =>
      match AlnumAfter(s, a)
      case None => None
      case Some(g1) =>
        var c := SpacesEnd(s, g1.1);
        if c == g1.1 then None
        else
          match MercLabelEnd(s, c)
          case None => None
          case Some(a2) =>
            match AlnumAfter(s, a2)
            case None => None
            case Some(g2) => Some((s[g1.0..g1.1], s[g2.0..g2.1]))
  }

  /** `(?:TERM#?|TID)\s*([A-Z0-9]+)` at `p`. */
  function TerminalAt(s: string, p: nat): (r: Option<string>)
    ensures r.Some? ==> |r.value| > 0 && AllIn(r.value, AlphaNum)
  {
    match TermLabelEnd(s, p)
    case None => None
    case Some(a) =>
      match AlnumAfter(s, a)
      case None => None
      case Some(g) => Some(s[g.0..g.1])
  }

  /** `(?:MERC#?|MID)\s*([A-Z0-9]+)` at `p`. */
  function MerchantAt(s: string, p: nat): (r: Option<string>)
    ensures r.Some? ==> |r.value| > 0 && AllIn(r.value, AlphaNum)
  {
    match MercLabelEnd(s, p)
    case None => None
    case Some(a) =>
      match AlnumAfter(s, a)
      case None => None
      case Some(g) => Some(s[g.0..g.1])
  }

  // --------------------------------------------------------------- address

  /** `^(<word>.*?)\n` under the `m` flag at `p`: the line from `p` up to a
      line feed, provided no other line terminator comes first. */
  function LineFromAt(s: string, p: nat, word: string): (r: Option<string>)
    ensures r.Some? ==> |r.value| >= |word| && EqualsIgnoreCase(r.value[..|word|], word)
  {
    if LineStart(s, p) && LitAt(s, p, word) then
      var t := RunEnd(s, p + |word|, NotLineTerminator);
      if t < |s| && s[t] == '\n' then
        assert s[p..t][..|word|] == s[p..p + |word|];
        Some(s[p..t])
      else None
    else None
  }

  /** `^(JL\.?.*?)\n` with flags `im`; the optional dot is itself consumed by `.*?`. */
  function JlAddressAt(s: string, p: nat): (r: Option<string>)
    ensures r.Some? ==> |r.value| >= 2 && !IsSpace(r.value[0])
  {
    LineFromAt(s, p, "JL")
  }

  /** `^(Jalan.*?)\n` with flags `im`. */
  function JalanAddressAt(s: string, p: nat): (r: Option<string>)
    ensures r.Some? ==> |r.value| >= 5 && !IsSpace(r.value[0])
  {
    LineFromAt(s, p, "JALAN")
  }

  // ------------------------------------------------------------- date/time

  /** The two groups of `DATE\/TIME\s+(\d{1,2}\s+\w{3},\s*\d{2})\s+(\d{2}:\d{2})`. */
  datatype DateTimeText = DateTimeText(date: string, time: string)

  /** That pattern at `p`. */
  function DateTimeAt(s: string, p: nat): (r: Option<DateTimeText>)
    ensures r.Some? ==> |r.value.time| == 5 && ClockAt(r.value.time, 0)
  {
    if LitAt(s, p, "DATE/TIME") then
      var a := SpacesEnd(s, p + 9);
      if a > p + 9 && a < |s| && IsDigit(s[a]) then
        var d := if a + 1 < |s| && IsDigit(s[a + 1]) then a + 2 else a + 1;
        var f := SpacesEnd(s, d);
        if f > d && f + 4 <= |s| && IsWordChar(s[f]) && IsWordChar(s[f + 1]) && IsWordChar(s[f + 2]) && s[f + 3] == ',' then
          var g := SpacesEnd(s, f + 4);
          if DigitsAt(s, g, 2) then
            var h := SpacesEnd(s, g + 2);
            if h > g + 2 && ClockAt(s, h) then
              Some(DateTimeText(s[a..g + 2], s[h..h + 5]))
            else None
          else None
        else None
      else None
    else None
  }

  // ------------------------------------------------------------------ card

  /** `\*{8,}(\d{4})` at `p`. */
  function CardDigitsAt(s: string, p: nat): (r: Option<string>)
    ensures r.Some? ==> |r.value| == 4 && AllIn(r.value, Digit)
  {
    if p < |s| then
      var e := RunEnd(s, p, Star);
      if e - p >= 8 && DigitsAt(s, e, 4) then Some(s[e..e + 4]) else None
    else None
  }

  /** `CARD TYPE\s+(.*?)\n` once `\s+` has taken `w` characters after `base`:
      the lazy group stops at the first line terminator, which must be a line
      feed; otherwise `\s+` gives back one more character. */
  function PaymentLineFrom(s: string, base: nat, w: nat): (r: Option<string>)
    requires base + w <= |s|
    ensures r.Some? ==> forall i :: 0 <= i < |r.value| ==> !IsLineTerminator(r.value[i])
    decreases w
  {
    if w == 0 then None
    else
      var t := RunEnd(s, base + w, NotLineTerminator);
      if t < |s| && s[t] == '\n' then Some(s[base + w..t])
      else PaymentLineFrom(s, base, w - 1)
  }

  /** `CARD TYPE\s+(.*?)\n` at `p`. */
  function PaymentMethodAt(s: string, p: nat): (r: Option<string>)
    ensures r.Some? ==> forall i :: 0 <= i < |r.value| ==> !IsLineTerminator(r.value[i])
  {
    if LitAt(s, p, "CARD TYPE") then
      var a := SpacesEnd(s, p + 9);
      PaymentLineFrom(s, p + 9, a - (p + 9))
    else None
  }

  // -------------------------------------------------------------- software

  /** The two groups of `([A-Z0-9]+)\/(ANS\w+)`. */
  datatype Software = Software(code: string, kind: string)

  /** That pattern at `p`. */
  function SoftwareAt(s: string, p: nat): (r: Option<Software>)
    ensures r.Some? ==> |r.value.code| > 0 && AllIn(r.value.code, AlphaNum)
    ensures r.Some? ==> |r.value.kind| > 3 && EqualsIgnoreCase(r.value.kind[..3], "ANS")
  {
    if p <= |s| then
      var e := RunEnd(s, p, AlphaNum);
      if e > p && e < |s| && s[e] == '/' && LitAt(s, e + 1, "ANS") then
        var f := RunEnd(s, e + 4, Word);
        if f > e + 4 then Some(Software(s[p..e], s[e + 1..f])) else None
      else None
    else None
  }

  // ----------------------------------------------------------------- total

  /** `(?:TOTAL|TOTAI)\s*(-?Rp\.?\s*[\d,.]+)` at `p`: the group. When a dot
      follows `Rp` but no amount follows the dot, the engine drops the
      optional dot and lets the amount class take it instead. */
  function TotalAt(s: string, p: nat): (r: Option<string>)
    ensures r.Some? ==> |r.value| >= 3
  {
    if LitAt(s, p, "TOTAL") || LitAt(s, p, "TOTAI") then
      var g := SpacesEnd(s, p + 5);
      var q := if g < |s| && s[g] == '-' then g + 1 else g;
      if LitAt(s, q, "RP") then
        var r0 := q + 2;
        if r0 < |s| && s[r0] == '.' then
          var u := SpacesEnd(s, r0 + 1);
          var e := RunEnd(s, u, AmountChar);
          if e > u then Some(s[g..e]) else Some(s[g..RunEnd(s, r0, AmountChar)])
        else
          var u := SpacesEnd(s, r0);
          var e := RunEnd(s, u, AmountChar);
          if e > u then Some(s[g..e]) else None
      else None
    else None
  }

  /** `Rp\.?\s*` at `p`, yielding where it ends. */
  function CurrencyPrefixAt(s: string, p: nat): (r: Option<nat>)
    ensures r.Some? ==> p + 2 <= r.value <= |s|
  {
    if LitAt(s, p, "RP") then
      var q := if p + 2 < |s| && s[p + 2] == '.' then p + 3 else p + 2;
      Some(SpacesEnd(s, q))
    else None
  }

  /** `g.replace(...)` with the pattern `Rp\.?\s*` and flag `i`: the leftmost
      currency prefix is cut out. */
  function StripCurrency(g: string): (r: string)
    ensures |r| <= |g|
    ensures (forall p :: 0 <= p <= |g| ==> CurrencyPrefixAt(g, p).None?) ==> r == g
    ensures r != g ==> exists a :: 0 <= a <= |g| && CurrencyPrefixAt(g, a).Some?
                                 && (forall k :: 0 <= k < a ==> CurrencyPrefixAt(g, k).None?)
                                 && r == g[..a] + g[CurrencyPrefixAt(g, a).value..]
  {
    match Leftmost(CurrencyPrefixAt, g, 0)
    case Some(h) => g[..h.at] + g[h.capture..]
    case None => g
  }

  /** The `TOTAL` group `<sign>Rp<dot><spaces><amount>`, for either letter case
      of `Rp`, an optional dot and an optional minus sign. */
  predicate SignedCurrencyGroup(sign: string, rp: string, dot: string, sp: string, amount: string) {
    && (sign == "" || sign == "-")
    && |rp| == 2 && EqualsIgnoreCase(rp, "RP")
    && (dot == "" || dot == ".")
    && AllSpace(sp)
    && |amount| > 0 && AllIn(amount, AmountChar)
  }

  /** How much of the amount the currency prefix takes: with neither a dot nor
      spaces after `Rp`, the optional dot of `Rp\.?` takes an amount's leading dot. */
  function AmountSkip(dot: string, sp: string, amount: string): nat
    requires |amount| > 0
  {
    if |dot| + |sp| == 0 && amount[0] == '.' then 1 else 0
  }

  /** The currency prefix of a signed group starts after the sign and ends
      where the amount starts. */
  lemma CurrencyPrefixAtSigned(sign: string, rp: string, dot: string, sp: string, amount: string)
    requires SignedCurrencyGroup(sign, rp, dot, sp, amount)
    ensures var g := sign + rp + dot + sp + amount;
            CurrencyPrefixAt(g, |sign|) == Some(|sign| + 2 + |dot| + |sp| + AmountSkip(dot, sp, amount))
  {
    var g := sign + rp + dot + sp + amount;
    var a := |sign|;
    var b := a + 2 + |dot| + |sp|;
    var e := b + AmountSkip(dot, sp, amount);
    assert g[a..a + 2] == rp;
    assert forall i :: b <= i < |g| ==> g[i] == amount[i - b];
    assert forall i :: a + 2 + |dot| <= i < b ==> g[i] == sp[i - a - 2 - |dot|];
    var q := if a + 2 < |g| && g[a + 2] == '.' then a + 3 else a + 2;
    if |dot| == 1 {
      assert g[a + 2] == '.';
    } else if |sp| > 0 {
      assert g[a + 2] == sp[0];
    } else {
      assert g[a + 2] == amount[0];
    }
    assert q == a + 2 + |dot| + AmountSkip(dot, sp, amount);
    assert e < |g| ==> InClass(amount[e - b], AmountChar);
    RunEndIs(g, q, Space, e);
  }

  /** Cutting the currency prefix out of a signed group leaves the sign and the
      amount. */
  lemma StripCurrencySigned(sign: string, rp: string, dot: string, sp: string, amount: string)
    requires SignedCurrencyGroup(sign, rp, dot, sp, amount)
    ensures StripCurrency(sign + rp + dot + sp + amount) == sign + amount[AmountSkip(dot, sp, amount)..]
  {
    var g := sign + rp + dot + sp + amount;
    var k := AmountSkip(dot, sp, amount);
    var e := |sign| + 2 + |dot| + |sp| + k;
    CurrencyPrefixAtSigned(sign, rp, dot, sp, amount);
    if sign == "-" {
      NoCurrencyPrefixAtMinus(g);
    }
    StripCurrencyAt(g, |sign|, e);
    GroupSlices(sign, rp, dot, sp, amount, k);
  }

  /** A currency prefix never starts at a minus sign. */
  lemma NoCurrencyPrefixAtMinus(g: string)
    requires |g| > 0 && g[0] == '-'
    ensures CurrencyPrefixAt(g, 0).None?
  {
    assert !LitAt(g, 0, "RP");
  }

  lemma GroupSlices(sign: string, rp: string, dot: string, sp: string, amount: string, k: nat)
    requires k <= |amount|
    ensures var g := sign + rp + dot + sp + amount;
            g[..|sign|] == sign && g[|sign| + |rp| + |dot| + |sp| + k..] == amount[k..]
  {
    var g := sign + rp + dot + sp + amount;
    var b := |sign| + |rp| + |dot| + |sp|;
    assert forall i :: b <= i < |g| ==> g[i] == amount[i - b];
  }

  /** A currency prefix from `a` to `e` with none starting earlier is the one cut out. */
  lemma StripCurrencyAt(g: string, a: nat, e: nat)
    requires CurrencyPrefixAt(g, a) == Some(e)
    requires forall k :: 0 <= k < a ==> CurrencyPrefixAt(g, k).None?
    ensures a <= e <= |g|
    ensures StripCurrency(g) == g[..a] + g[e..]
  {
    var hit := Leftmost<nat>(CurrencyPrefixAt, g, 0);
    assert hit == Some(Hit(a, e));
  }

  /** Cutting the currency prefix out brings in no character the group lacked. */
  lemma StripCurrencyKeepsOut(g: string, c: char)
    requires c !in g
    ensures c !in StripCurrency(g)
  {
    var hit := Leftmost<nat>(CurrencyPrefixAt, g, 0);
    if hit.Some? {
      var h := hit.value;
      assert CurrencyPrefixAt(g, h.at) == Some(h.capture);
      CutKeepsOut(g, h.at, h.capture, c);
    }
  }

  lemma CutKeepsOut(g: string, a: nat, b: nat, c: char)
    requires a <= b <= |g| && c !in g
    ensures c !in g[..a] + g[b..]
  {
    var r := g[..a] + g[b..];
    forall i | 0 <= i < |r| ensures r[i] != c {
      if i < a { assert r[i] == g[i]; } else { assert r[i] == g[b + i - a]; }
    }
  }

  /** `-\s*Rp\s*([,\d.]+)` at `p`: the amount group of the void fallback. */
  function NegativeAmountAt(s: string, p: nat): (r: Option<string>)
    ensures r.Some? ==> |r.value| > 0 && AllIn(r.value, AmountChar)
  {
    if p < |s| && s[p] == '-' then
      var a := SpacesEnd(s, p + 1);
      if LitAt(s, a, "RP") then
        var b := SpacesEnd(s, a + 2);
        var e := RunEnd(s, b, AmountChar);
        if e > b then Some(s[b..e]) else None
      else None
    else None
  }
}

=== FILE: scan.dfy ===
/** The matching vocabulary every hand-written pattern is built from: maximal
    character runs, literals, anchors, and the leftmost-first search that
    `String.prototype.match` performs with a non-global pattern. */
module Scan {
  import opened Chars

  datatype Option<+T> = None | Some(value: T)

  /** A successful search: the start position of the match and what it captured. */
  datatype Hit<+T> = Hit(at: nat, capture: T)

  /** The end of the longest run of `k`-characters starting at `p`: what a
      greedy `k*` consumes when nothing after it forces backtracking. */
  function RunEnd(s: string, p: nat, k: CharClass): (e: nat)
    requires p <= |s|
    ensures p <= e <= |s|
    ensures forall i :: p <= i < e ==> InClass(s[i], k)
    ensures e == |s| || !InClass(s[e], k)
    decreases |s| - p
  {
    if p < |s| && InClass(s[p], k) then RunEnd(s, p + 1, k) else p
  }

  /** A maximal run is unique: any end that satisfies the run conditions is the one computed. */
  lemma RunEndIs(s: string, p: nat, k: CharClass, e: nat)
    requires p <= e <= |s|
    requires forall i :: p <= i < e ==> InClass(s[i], k)
    requires e == |s| || !InClass(s[e], k)
    ensures RunEnd(s, p, k) == e
  {
  }

  /** `\s*` */
  function SpacesEnd(s: string, p: nat): (e: nat)
    requires p <= |s|
    ensures p <= e <= |s|
  {
    RunEnd(s, p, Space)
  }

  /** The upper-case ASCII literal `lit` occurs at `p`, compared as an `/i` pattern does. */
  predicate LitAt(s: string, p: nat, lit: string) {
    p + |lit| <= |s| && EqualsIgnoreCase(s[p..p + |lit|], lit)
  }

  /** A literal found in the text is found at the same place in a slice that covers it. */
  lemma LitAtSlice(s: string, p: nat, e: nat, k: nat, lit: string)
    requires p <= k && k + |lit| <= e <= |s|
    requires LitAt(s, k, lit)
    ensures LitAt(s[p..e], k - p, lit)
  {
    var v := s[p..e];
    var x := v[k - p..k - p + |lit|];
    var y := s[k..k + |lit|];
    assert forall i :: 0 <= i < |lit| ==> x[i] == y[i];
    assert x == y;
  }

  /** The literal `lit` occurs at `p`, compared exactly. */
  predicate ExactAt(s: string, p: nat, lit: string) {
    p + |lit| <= |s| && s[p..p + |lit|] == lit
  }

  /** `\d{n}` at `p`. */
  predicate DigitsAt(s: string, p: nat, n: nat) {
    p + n <= |s| && forall i :: p <= i < p + n ==> IsDigit(s[i])
  }

  /** `\d{2}:\d{2}` at `p`. */
  predicate ClockAt(s: string, p: nat) {
    DigitsAt(s, p, 2) && p + 5 <= |s| && s[p + 2] == ':' && DigitsAt(s, p + 3, 2)
  }

  predicate WordCharAt(s: string, i: int) {
    0 <= i < |s| && IsWordChar(s[i])
  }

  /** `\b` at `p`: a word character on exactly one side. */
  predicate WordBoundary(s: string, p: nat) {
    WordCharAt(s, p - 1) != WordCharAt(s, p)
  }

  /** `^` under the `m` flag. */
  predicate LineStart(s: string, p: nat) {
    p == 0 || (p <= |s| && IsLineTerminator(s[p - 1]))
  }

  /** The leftmost position at or after `from` where the matcher `m` succeeds,
      with its capture: the first match wins and no earlier position matches. */
  function Leftmost<T(==)>(m: (string, nat) -> Option<T>, s: string, from: nat): (r: Option<Hit<T>>)
    ensures r.Some? ==> from <= r.value.at <= |s| && m(s, r.value.at) == Some(r.value.capture)
    ensures r.Some? ==> forall q :: from <= q < r.value.at ==> m(s, q).None?
    ensures r.None? <==> forall q :: from <= q <= |s| ==> m(s, q).None?
    decreases |s| + 1 - from
  {
    if from > |s| then None
    else match m(s, from)
      case Some(c) => Some(Hit(from, c))
      case None => Leftmost(m, s, from + 1)
  }

  /** The capture of the leftmost match, if any: `text.match(re)` read through one group. */
  function FirstCapture<T(==)>(m: (string, nat) -> Option<T>, s: string): (r: Option<T>)
    ensures r.Some? <==> exists q :: 0 <= q <= |s| && m(s, q).Some?
    ensures r.Some? ==> exists q :: 0 <= q <= |s| && m(s, q) == Some(r.value)
                                   && forall k :: 0 <= k < q ==> m(s, k).None?
  {
    match Leftmost(m, s, 0)
    case Some(h) =>
      assert m(s, h.at) == Some(h.capture);
      Some(h.capture)
    case None => None
  }
}

=== FILE: struk.dfy ===
/** `parseStrukText` (pages/api/process-image-link.js): the anchor-based
    parser that turns OCR text of a BCA card-terminal slip into a record of
    optional fields. */
module Struk {
  import opened Chars
  import opened Scan
  import opened Text
  import opened Decimal
  import opened StrukFields

  // ---------------------------------------------------------------- lines

  /** The trimmed pieces that are not empty, in order. */
  function NonEmptyTrimmed(pieces: seq<string>): (r: seq<string>)
    ensures |r| <= |pieces|
  {
    if |pieces| == 0 then []
    else
      var t := Trim(pieces[0]);
      (if |t| > 0 then [t] else []) + NonEmptyTrimmed(pieces[1..])
  }

  /** A normalised line: non-empty, already trimmed, and without `c`. */
  predicate CleanLine(x: string, c: char) {
    |x| > 0 && Trim(x) == x && c !in x
  }

  /** Every kept piece is non-empty and already trimmed, and a character
      absent from every piece is absent from every kept line. */
  lemma {:induction false} NonEmptyTrimmedShape(pieces: seq<string>, c: char)
    requires forall k :: 0 <= k < |pieces| ==> c !in pieces[k]
    ensures forall i :: 0 <= i < |NonEmptyTrimmed(pieces)| ==> CleanLine(NonEmptyTrimmed(pieces)[i], c)
    decreases |pieces|
  {
    if |pieces| > 0 {
      var t := Trim(pieces[0]);
      var rest := NonEmptyTrimmed(pieces[1..]);
      assert forall k :: 0 <= k < |pieces[1..]| ==> c !in pieces[1..][k];
      NonEmptyTrimmedShape(pieces[1..], c);
      if |t| > 0 {
        TrimIdempotent(pieces[0]);
        TrimKeepsOut(pieces[0], c);
        assert CleanLine(t, c);
        var r := NonEmptyTrimmed(pieces);
        assert r == [t] + rest;
        forall i | 0 <= i < |r|
          ensures CleanLine(r[i], c)
        {
          if i > 0 {
            assert r[i] == rest[i - 1];
          }
        }
      }
    }
  }

  /** Every piece that is not blank survives, trimmed. */
  lemma {:induction false} NonEmptyTrimmedComplete(pieces: seq<string>)
    ensures forall k :: 0 <= k < |pieces| && |Trim(pieces[k])| > 0 ==> Trim(pieces[k]) in NonEmptyTrimmed(pieces)
    decreases |pieces|
  {
    if |pieces| > 0 {
      var t := Trim(pieces[0]);
      var rest := NonEmptyTrimmed(pieces[1..]);
      NonEmptyTrimmedComplete(pieces[1..]);
      assert forall k :: 1 <= k < |pieces| ==> pieces[k] == pieces[1..][k - 1];
      assert NonEmptyTrimmed(pieces) == (if |t| > 0 then [t] else []) + rest;
    }
  }

  /** The filter keeps the input order: it distributes over concatenation. */
  lemma {:induction false} NonEmptyTrimmedAppend(a: seq<string>, b: seq<string>)
    ensures NonEmptyTrimmed(a + b) == NonEmptyTrimmed(a) + NonEmptyTrimmed(b)
    decreases |a|
  {
    if |a| == 0 {
      assert a + b == b;
    } else {
      assert (a + b)[0] == a[0];
      assert (a + b)[1..] == a[1..] + b;
      NonEmptyTrimmedAppend(a[1..], b);
    }
  }

  /** The lines of the raw text: split at line feeds, each piece trimmed,
      and the pieces left empty dropped. */
  function Lines(raw: string): (r: seq<string>)
    ensures forall i :: 0 <= i < |r| ==> CleanLine(r[i], '\n')
  {
    NonEmptyTrimmedShape(Split(raw, '\n'), '\n');
    NonEmptyTrimmed(Split(raw, '\n'))
  }

  /** Every normalised line is non-empty, already trimmed and free of line
      feeds; every non-blank piece between line feeds survives; empty text has no lines. */
  lemma LinesShape(raw: string)
    ensures forall i :: 0 <= i < |Lines(raw)| ==> CleanLine(Lines(raw)[i], '\n')
    ensures forall k :: 0 <= k < |Split(raw, '\n')| && |Trim(Split(raw, '\n')[k])| > 0 ==> Trim(Split(raw, '\n')[k]) in Lines(raw)
    ensures |raw| == 0 ==> |Lines(raw)| == 0
  {
    NonEmptyTrimmedShape(Split(raw, '\n'), '\n');
    NonEmptyTrimmedComplete(Split(raw, '\n'));
    if |raw| == 0 {
      assert Split(raw, '\n') == [[]];
      assert |Trim([])| == 0;
    }
  }

  // ---------------------------------------------------------- merchant name

  /** The anchor test: the upper-cased line contains `BCA`. */
  predicate IsAnchor(line: string) {
    Includes(ToUpper(line), "BCA")
  }

  /** The literal prefixes of the exclusion pattern, upper-cased. The optional
      dots after `JL`, `RT`, `RW`, `KEC`, `NO` and `ACT` never change whether
      the anchored pattern matches. */
  const ExcludedPrefixes: seq<string> := [
    "JL", "RT", "RW", "KEC", "KOTA", "BLOK", "NO", "ACT", "TANGGAL", "WAKTU", "MID",
    "TERM#", "MERC#", "DATE", "TIME", "BATCH", "TRACE", "REF.NO", "APPR.CODE",
    "SIGNATURE NOT REQUIRED", "CARDHOLDER COPY", "MERCHANT COPY"]

  /** `C[0-9]{2}D[0-9]{4}` at the start of the line. */
  predicate TerminalCodePrefix(line: string) {
    |line| >= 8 && Upper(line[0]) == 'C' && DigitsAt(line, 1, 2) && Upper(line[3]) == 'D' && DigitsAt(line, 4, 4)
  }

  /** The alternatives of the exclusion pattern that test only a prefix. */
  predicate HasExcludedPrefix(line: string) {
    || (exists k :: 0 <= k < |ExcludedPrefixes| && LitAt(line, 0, ExcludedPrefixes[k]))
    || DigitsAt(line, 0, 10)
    || TerminalCodePrefix(line)
    || (|line| > 0 && line[0] == '*')
  }

  /** The last alternative, `[\d\s\W]{0,3}$`: the whole line is at most three
      digits, whitespace or non-word characters. */
  predicate ShortSymbolLine(line: string) {
    |line| <= 3 && forall i :: 0 <= i < |line| ==> IsDigit(line[i]) || !IsWordChar(line[i])
  }

  /** `excludePatterns.test(line)` */
  predicate Excluded(line: string) {
    HasExcludedPrefix(line) || ShortSymbolLine(line)
  }

  /** `/[a-zA-Z]/.test(line)` */
  predicate ContainsLetter(line: string) {
    exists i :: 0 <= i < |line| && IsLetter(line[i])
  }

  /** The inner loop's acceptance test on a trimmed line. */
  predicate Acceptable(t: string) {
    |t| > 3 && !Excluded(t) && ContainsLetter(t)
  }

  /** A line the inner loop accepts once trimmed. */
  predicate IsMerchantLine(line: string) {
    Acceptable(Trim(line))
  }

  /** For a line long enough to be accepted, only the prefix alternatives of
      the exclusion pattern can reject it. */
  lemma ShortSymbolNeverLong(line: string)
    requires |line| > 3
    ensures Excluded(line) <==> HasExcludedPrefix(line)
  {
  }

  /** The single-scan reading of the nested loops: the first acceptable line
      after the first anchor, trimmed. */
  function MerchantName(lines: seq<string>): (r: Option<string>)
    ensures r.Some? ==> exists j :: 0 <= j < |lines| && IsMerchantLine(lines[j]) && r.value == Trim(lines[j])
  {
    match FirstWhere(lines, 0, IsAnchor)
    case None => None
    case Some(a) =>
      match FirstWhere(lines, a + 1, IsMerchantLine)
      case Some(j) => Some(Trim(lines[j]))
      case None => None
  }

  /** A resolved merchant name is longer than three characters, contains a
      letter, and starts with none of the excluded prefixes. */
  lemma MerchantNameAccepted(lines: seq<string>)
    ensures MerchantName(lines).Some? ==>
              var v := MerchantName(lines).value;
              |v| > 3 && ContainsLetter(v) && !HasExcludedPrefix(v)
  {
    if MerchantName(lines).Some? {
      var j :| 0 <= j < |lines| && IsMerchantLine(lines[j]) && MerchantName(lines).value == Trim(lines[j]);
    }
  }

  /** A resolved merchant name is the trimmed form of the first acceptable
      line strictly below the first anchor line. */
  lemma MerchantNameFirst(lines: seq<string>)
    ensures MerchantName(lines).Some? ==>
              exists i, j :: 0 <= i < j < |lines| && IsAnchor(lines[i]) && IsMerchantLine(lines[j])
                && MerchantName(lines).value == Trim(lines[j])
                && (forall k :: 0 <= k < i ==> !IsAnchor(lines[k]))
                && (forall k :: i < k < j ==> !IsMerchantLine(lines[k]))
  {
    match FirstWhere(lines, 0, IsAnchor)
    case None =>
    case Some(a) =>
      match FirstWhere(lines, a + 1, IsMerchantLine)
      case Some(j) =>
        assert MerchantName(lines).value == Trim(lines[j]);
      case None =>
  }

  /** No merchant name is resolved exactly when no acceptable line lies below any anchor line. */
  lemma MerchantNameNone(lines: seq<string>)
    ensures MerchantName(lines).None? <==> forall i, j :: 0 <= i < j < |lines| && IsAnchor(lines[i]) ==> !IsMerchantLine(lines[j])
  {
    match FirstWhere(lines, 0, IsAnchor)
    case None =>
    case Some(a) =>
      match FirstWhere(lines, a + 1, IsMerchantLine)
      case Some(j) =>
      case None =>
        assert forall i, j :: 0 <= i < j < |lines| && IsAnchor(lines[i]) ==> a <= i && !IsMerchantLine(lines[j]);
  }

  /** No line after line `k` is acceptable. */
  predicate NothingAcceptedBelow(lines: seq<string>, k: nat) {
    forall m :: k < m < |lines| ==> !IsMerchantLine(lines[m])
  }

  /** The facts the outer loop has gathered when the inner loop accepts line `j`
      below anchor `i` pin the reference result down. */
  lemma MerchantNameFound(lines: seq<string>, i: nat, j: nat)
    requires i < j < |lines| && IsAnchor(lines[i]) && IsMerchantLine(lines[j])
    requires forall k :: 0 <= k < i && IsAnchor(lines[k]) ==> NothingAcceptedBelow(lines, k)
    requires forall m :: i < m < j ==> !IsMerchantLine(lines[m])
    ensures MerchantName(lines) == Some(Trim(lines[j]))
  {
    var a := FirstWhere(lines, 0, IsAnchor);
    assert a.Some?;
    assert a.value == i;
    var b := FirstWhere(lines, i + 1, IsMerchantLine);
    assert b.Some?;
    assert b.value == j;
  }

  /** The inner loop of the source: the first line below line `i` that is
      accepted once trimmed. */
  method ScanBelow(lines: seq<string>, i: nat) returns (hit: Option<nat>)
    requires i < |lines|
    ensures hit == FirstWhere(lines, i + 1, IsMerchantLine)
    ensures hit.None? ==> NothingAcceptedBelow(lines, i)
  {
    var j := i + 1;
    while j < |lines|
      invariant i + 1 <= j <= |lines|
      invariant forall m :: i < m < j ==> !IsMerchantLine(lines[m])
    {
      var potential := Trim(lines[j]);
      if Acceptable(potential) {
        assert IsMerchantLine(lines[j]);
        return Some(j);
      }
      j := j + 1;
    }
    return None;
  }

  /** The nested loops of the source, with their two `break`s. */
  method ResolveMerchantName(lines: seq<string>) returns (name: Option<string>)
    ensures name == MerchantName(lines)
  {
    name := None;
    var i := 0;
    while i < |lines|
      invariant 0 <= i <= |lines|
      invariant forall k :: 0 <= k < i && IsAnchor(lines[k]) ==> NothingAcceptedBelow(lines, k)
      invariant name.None?
    {
      if Includes(ToUpper(lines[i]), "BCA") {
        var hit := ScanBelow(lines, i);
        if hit.Some? {
          MerchantNameFound(lines, i, hit.value);
          name := Some(Trim(lines[hit.value]));
          break;
        }
      }
      i := i + 1;
    }
    if name.None? {
      MerchantNameAbsent(lines);
    }
  }

  /** When no anchor has an accepted line below it, there is no merchant name. */
  lemma MerchantNameAbsent(lines: seq<string>)
    requires forall k :: 0 <= k < |lines| && IsAnchor(lines[k]) ==> NothingAcceptedBelow(lines, k)
    ensures MerchantName(lines).None?
  {
    MerchantNameNone(lines);
  }

  // ---------------------------------------------------------------- fields

  /** `merchant_id`: the last nine characters of a run of nine or more, else the run. */
  function LastNine(run: string): (r: string)
    ensures |r| == if |run| >= 9 then 9 else |run|
    ensures run == run[..|run| - |r|] + r
  {
    if |run| >= 9 then run[|run| - 9..] else run
  }

  /** `merchant_id`: digits only, at most nine of them, and the tail of the
      leftmost captured run. */
  function MerchantId(raw: string): (r: Option<string>)
    ensures r.Some? <==> FirstCapture(MerchantCodeAt, raw).Some?
    ensures r.Some? ==> 0 < |r.value| <= 9 && AllDigits(r.value)
    ensures forall run :: FirstCapture(MerchantCodeAt, raw) == Some(run) ==>
              r == Some(LastNine(run)) && (|run| < 9 ==> r.value == run)
  {
    match FirstCapture(MerchantCodeAt, raw)
    case Some(run) =>
      var t := LastNine(run);
      assert forall i :: 0 <= i < |t| ==> t[i] == run[|run| - |t| + i];
      Some(t)
    case None => None
  }

  /** `card_type`: the `CARD TYPE` pattern when it matches anywhere, the
      `DEBIT …` pattern only otherwise; the stored text is trimmed. */
  function CardType(raw: string): (r: Option<string>)
    ensures r.Some? <==> FirstCapture(CardTypeAt, raw).Some? || FirstCapture(DebitCardTypeAt, raw).Some?
    ensures FirstCapture(CardTypeAt, raw).Some? ==> r == Some(Trim(FirstCapture(CardTypeAt, raw).value))
    ensures FirstCapture(CardTypeAt, raw).None? && FirstCapture(DebitCardTypeAt, raw).Some? ==>
              r == Some(Trim(FirstCapture(DebitCardTypeAt, raw).value))
    ensures r.Some? ==> Trim(r.value) == r.value
  {
    match FirstCapture(CardTypeAt, raw)
    case Some(g) =>
      TrimIdempotent(g);
      Some(Trim(g))
    case None =>
      match FirstCapture(DebitCardTypeAt, raw)
      case Some(g) =>
        TrimIdempotent(g);
        Some(Trim(g))
      case None => None
  }

  /** `card_number_masked`: six or more asterisks followed by four digits,
      present iff the pattern matches somewhere. */
  function MaskedCard(raw: string): (r: Option<string>)
    ensures r.Some? <==> exists p :: 0 <= p <= |raw| && MaskedCardAt(raw, p).Some?
    ensures r.Some? ==> |r.value| >= 10
    ensures r.Some? ==> forall i :: 0 <= i < |r.value| - 4 ==> r.value[i] == '*'
    ensures r.Some? ==> forall i :: |r.value| - 4 <= i < |r.value| ==> IsDigit(r.value[i])
    ensures r.Some? ==> exists p :: 0 <= p <= |raw| && MaskedCardAt(raw, p) == Some(r.value)
                                    && forall k :: 0 <= k < p ==> MaskedCardAt(raw, k).None?
  {
    match Leftmost(MaskedCardAt, raw, 0)
    case Some(h) =>
      assert MaskedCardAt(raw, h.at) == Some(h.capture);
      Some(h.capture)
    case None => None
  }

  /** `terminal_id`: a non-empty run of letters and digits, present iff the
      pattern matches somewhere. */
  function TerminalId(raw: string): (r: Option<string>)
    ensures r.Some? <==> exists p :: 0 <= p <= |raw| && TerminalAt(raw, p).Some?
    ensures r.Some? ==> |r.value| > 0 && AllIn(r.value, AlphaNum)
    ensures r.Some? ==> exists p :: 0 <= p <= |raw| && TerminalAt(raw, p) == Some(r.value)
                                    && forall k :: 0 <= k < p ==> TerminalAt(raw, k).None?
  {
    match Leftmost(TerminalAt, raw, 0)
    case Some(h) =>
      assert TerminalAt(raw, h.at) == Some(h.capture);
      Some(h.capture)
    case None => None
  }

  /** The sign and value of a captured amount: every `.` dropped, the first
      `,` read as the decimal point, the longest numeric prefix parsed, then
      negated when the sign group captured `-`. */
  function AmountValue(t: AmountText): (r: Number)
    ensures '-' !in t.digits && r.Num? && r.value < 0.0 ==> t.negative
    ensures '-' !in t.digits && r.Num? && t.negative ==> r.value <= 0.0
  {
    assert '-' !in t.digits ==> '-' !in NormaliseAmount(t.digits) by {
      if '-' !in t.digits { NormaliseAmountUnsigned(t.digits); }
    }
    var v := ParseFloat(NormaliseAmount(t.digits));
    if t.negative then Negate(v) else v
  }

  /** A dot-grouped amount with a decimal comma is worth the decimal its
      digits spell, with the captured sign. */
  lemma AmountValueLocale(negative: bool, whole: string, frac: string)
    requires forall i :: 0 <= i < |whole| ==> IsDigit(whole[i]) || whole[i] == '.'
    requires AllDigits(frac)
    requires |RemoveAll(whole, '.')| > 0 || |frac| > 0
    ensures AllDigits(RemoveAll(whole, '.'))
    ensures AmountValue(AmountText(negative, whole + "," + frac))
         == Num(if negative then -DecimalValue(RemoveAll(whole, '.'), frac) else DecimalValue(RemoveAll(whole, '.'), frac))
  {
    ParseLocaleAmount(whole, frac);
  }

  /** Any amount run with a comma: the dot-free digits before the first comma
      are the integer part, the dot-free digits up to a second comma are the
      fraction, and whatever follows a second comma is never read. */
  lemma AmountValueComma(negative: bool, whole: string, frac: string, rest: string)
    requires forall i :: 0 <= i < |whole| ==> IsDigit(whole[i]) || whole[i] == '.'
    requires forall i :: 0 <= i < |frac| ==> IsDigit(frac[i]) || frac[i] == '.'
    requires |rest| == 0 || rest[0] == ','
    ensures AllDigits(RemoveAll(whole, '.')) && AllDigits(RemoveAll(frac, '.'))
    ensures var v := if |RemoveAll(whole, '.')| == 0 && |RemoveAll(frac, '.')| == 0 then NaN
                     else Num(DecimalValue(RemoveAll(whole, '.'), RemoveAll(frac, '.')));
            AmountValue(AmountText(negative, whole + "," + frac + rest)) == if negative then Negate(v) else v
  {
    ParseLocaleAmountRest(whole, frac, rest);
  }

  /** `Rp 1,000,000`: the first comma is read as the decimal point and the
      second stops the number, so the amount is one. */
  lemma AmountExampleSecondComma()
    ensures AmountValue(AmountText(false, "1" + "," + "000" + ",000")) == Num(1.0)
  {
    var d := DecimalValue("1", "000");
    assert d == 1.0 by {
      assert DigitsValue("1") == 1 by { assert "1"[..0] == ""; }
      assert DigitsValue("000") == 0 by {
        assert "000"[..2] == "00" && "00"[..1] == "0" && "0"[..0] == "";
      }
    }
    assert AmountValue(AmountText(false, "1" + "," + "000" + ",000")) == Num(d) by {
      assert RemoveAll("1", '.') == "1";
      assert RemoveAll("000", '.') == "000";
      AmountValueComma(false, "1", "000", ",000");
    }
  }

  /** A dot-grouped amount without a comma is worth its digits as an integer. */
  lemma AmountValueInteger(negative: bool, whole: string)
    requires forall i :: 0 <= i < |whole| ==> IsDigit(whole[i]) || whole[i] == '.'
    requires |RemoveAll(whole, '.')| > 0
    ensures AllDigits(RemoveAll(whole, '.'))
    ensures AmountValue(AmountText(negative, whole))
         == Num(if negative then -(DigitsValue(RemoveAll(whole, '.')) as real) else DigitsValue(RemoveAll(whole, '.')) as real)
  {
    NormaliseLocaleInteger(whole);
    ParseInteger(RemoveAll(whole, '.'));
  }

  /** The digit strings the first worked amount reduces to. */
  lemma WorkedDigitsLocale()
    ensures DigitsValue("15000") == 15000 && DigitsValue("50") == 50
  {
    assert DigitsValue("1") == 1 by { assert "1"[..0] == ""; }
    assert DigitsValue("5") == 5 by { assert "5"[..0] == ""; }
    DigitsValueSnoc("1", '5');
    assert "1" + ['5'] == "15";
    DigitsValueSnoc("15", '0');
    assert "15" + ['0'] == "150";
    DigitsValueSnoc("150", '0');
    assert "150" + ['0'] == "1500";
    DigitsValueSnoc("1500", '0');
    assert "1500" + ['0'] == "15000";
    DigitsValueSnoc("5", '0');
    assert "5" + ['0'] == "50";
  }

  /** The digit strings the negative worked amount reduces to. */
  lemma WorkedDigitsNegative()
    ensures DigitsValue("5000") == 5000 && DigitsValue("00") == 0
  {
    assert DigitsValue("5") == 5 by { assert "5"[..0] == ""; }
    assert DigitsValue("0") == 0 by { assert "0"[..0] == ""; }
    DigitsValueSnoc("5", '0');
    assert "5" + ['0'] == "50";
    DigitsValueSnoc("50", '0');
    assert "50" + ['0'] == "500";
    DigitsValueSnoc("500", '0');
    assert "500" + ['0'] == "5000";
    DigitsValueSnoc("0", '0');
    assert "0" + ['0'] == "00";
  }

  /** The worked amount `Rp 15.000,50`: the integer part `15.000`, a comma
      and the fraction `50` are worth 15000.5. */
  lemma AmountExampleLocale()
    ensures AmountValue(AmountText(false, "15.000" + "," + "50")) == Num(15000.5)
  {
    var d := DecimalValue("15000", "50");
    assert d == 15000.5 by {
      WorkedDigitsLocale();
      assert Pow10(2) == 100;
    }
    assert AmountValue(AmountText(false, "15.000" + "," + "50")) == Num(d) by {
      assert RemoveAll("15.000", '.') == "15000";
      AmountValueLocale(false, "15.000", "50");
    }
  }

  /** The worked amount `-Rp 5.000,00`: the captured sign negates the value. */
  lemma AmountExampleNegative()
    ensures AmountValue(AmountText(true, "5.000" + "," + "00")) == Num(-5000.0)
  {
    var d := DecimalValue("5000", "00");
    assert d == 5000.0 by {
      WorkedDigitsNegative();
      assert Pow10(2) == 100;
    }
    assert AmountValue(AmountText(true, "5.000" + "," + "00")) == Num(-d) by {
      assert RemoveAll("5.000", '.') == "5000";
      AmountValueLocale(true, "5.000", "00");
    }
  }

  /** A run with no digit before its first comma or after it, such as `.,`,
      parses to NaN, which the source stores as the amount. */
  lemma AmountWithoutDigits()
    ensures AmountValue(AmountText(false, ".,")) == NaN
  {
    assert RemoveAll(".,", '.') == ",";
    assert NormaliseAmount(".,") == ".";
    RunEndIs(".", 0, Digit, 0);
    RunEndIs(".", 1, Digit, 1);
  }

  /** `total_amount`: present iff the amount pattern matches somewhere, and
      then the value of its leftmost match. */
  function TotalAmount(raw: string): (r: Option<Number>)
    ensures r.Some? <==> exists p :: 0 <= p <= |raw| && AmountAt(raw, p).Some?
    ensures r.Some? ==> exists p :: 0 <= p <= |raw| && AmountAt(raw, p).Some? && r.value == AmountValue(AmountAt(raw, p).value)
                                    && forall k :: 0 <= k < p ==> AmountAt(raw, k).None?
    ensures FirstCapture(AmountAt, raw).Some? ==> r == Some(AmountValue(FirstCapture(AmountAt, raw).value))
  {
    match FirstCapture(AmountAt, raw)
    case Some(t) => Some(AmountValue(t))
    case None => None
  }

  /** `transaction_status`: always set, `VOID` exactly when the raw text
      contains `VOID` with that case, `COMPLETED` otherwise. */
  function Status(raw: string): (r: string)
    ensures r == "VOID" || r == "COMPLETED"
    ensures r == "VOID" <==> exists k :: 0 <= k <= |raw| && OccursAt(raw, "VOID", k)
  {
    IncludesMeansOccurs(raw, "VOID");
    if Includes(raw, "VOID") then "VOID" else "COMPLETED"
  }

  /** `notes`: the fixed remark exactly when that text occurs in the raw text. */
  function Notes(raw: string): (r: Option<string>)
    ensures r.Some? <==> exists k :: 0 <= k <= |raw| && OccursAt(raw, "SIGNATURE NOT REQUIRED", k)
    ensures r.Some? ==> r.value == "SIGNATURE NOT REQUIRED"
  {
    IncludesMeansOccurs(raw, "SIGNATURE NOT REQUIRED");
    if Includes(raw, "SIGNATURE NOT REQUIRED") then Some("SIGNATURE NOT REQUIRED") else None
  }

  // ---------------------------------------------------------------- record

  /** The `parsed_data` object; `None` is a key the parser never set. */
  datatype StrukData = StrukData(
    merchantName: Option<string>,
    transactionDateTime: Option<string>,
    terminalId: Option<string>,
    merchantId: Option<string>,
    cardType: Option<string>,
    cardNumberMasked: Option<string>,
    batchNumber: Option<string>,
    traceNumber: Option<string>,
    approvalCode: Option<string>,
    referenceNumber: Option<string>,
    totalAmount: Option<Number>,
    internalCodeReference: Option<string>,
    transactionStatus: string,
    notes: Option<string>)

  datatype StrukResult = StrukResult(rawOcrText: string, parsedData: StrukData)

  /** `parseStrukText(rawText)` */
  function ParseStrukText(raw: string): (r: StrukResult)
    ensures r.rawOcrText == raw
    ensures r.parsedData.merchantName == MerchantName(Lines(raw))
    ensures r.parsedData.transactionStatus == "VOID" <==> exists k :: 0 <= k <= |raw| && OccursAt(raw, "VOID", k)
    ensures r.parsedData.transactionStatus == "VOID" || r.parsedData.transactionStatus == "COMPLETED"
    ensures r.parsedData.notes.Some? <==> exists k :: 0 <= k <= |raw| && OccursAt(raw, "SIGNATURE NOT REQUIRED", k)
    ensures r.parsedData.merchantId.Some? ==> 0 < |r.parsedData.merchantId.value| <= 9 && AllDigits(r.parsedData.merchantId.value)
    ensures r.parsedData.cardNumberMasked.Some? ==>
              var c := r.parsedData.cardNumberMasked.value;
              |c| >= 10 && (forall i :: 0 <= i < |c| - 4 ==> c[i] == '*') && (forall i :: |c| - 4 <= i < |c| ==> IsDigit(c[i]))
    ensures r.parsedData.terminalId.Some? ==> |r.parsedData.terminalId.value| > 0 && AllIn(r.parsedData.terminalId.value, AlphaNum)
    ensures r.parsedData.totalAmount.Some? <==> exists p :: 0 <= p <= |raw| && AmountAt(raw, p).Some?
    ensures r.parsedData.transactionDateTime == DateTimeOf(raw)
    ensures r.parsedData.terminalId == TerminalId(raw)
    ensures r.parsedData.merchantId == MerchantId(raw)
    ensures r.parsedData.cardType == CardType(raw)
    ensures r.parsedData.cardNumberMasked == MaskedCard(raw)
    ensures r.parsedData.batchNumber == FirstCapture(BatchAt, raw)
    ensures r.parsedData.traceNumber == FirstCapture(TraceAt, raw)
    ensures r.parsedData.approvalCode == FirstCapture(ApprovalAt, raw)
    ensures r.parsedData.referenceNumber == FirstCapture(ReferenceAt, raw)
    ensures r.parsedData.totalAmount == TotalAmount(raw)
    ensures r.parsedData.internalCodeReference == FirstCapture(InternalCodeAt, raw)
    ensures r.parsedData.transactionStatus == Status(raw)
    ensures r.parsedData.notes == Notes(raw)
  {
    var data := StrukData(
      MerchantName(Lines(raw)),
      DateTimeOf(raw),
      TerminalId(raw),
      MerchantId(raw),
      CardType(raw),
      MaskedCard(raw),
      FirstCapture(BatchAt, raw),
      FirstCapture(TraceAt, raw),
      FirstCapture(ApprovalAt, raw),
      FirstCapture(ReferenceAt, raw),
      TotalAmount(raw),
      FirstCapture(InternalCodeAt, raw),
      Status(raw),
      Notes(raw));
    StrukResult(raw, data)
  }
}

=== FILE: struk_fields.dfy ===
/** The field patterns of `parseStrukText` (pages/api/process-image-link.js).
    Each `...At(s, p)` is the match the JavaScript backtracking engine finds
    when it tries the pattern at start position `p`: every greedy quantifier
    below is followed by something its own characters cannot begin, so the
    longest run is the only one that can succeed, and each alternative is
    tried in the order the pattern lists it. `Scan.Leftmost` then supplies
    the leftmost start position, which is what `rawText.match(re)` reports. */
module StrukFields {
  import opened Chars
  import opened Scan
  import opened Text

  const Months: seq<string> := ["JAN", "FEB", "MAR", "APR", "MAY", "JUN", "JUL", "AUG", "SEP", "OCT", "NOV", "DEC"]

  /** `(?:Jan|Feb|…|Dec)` under the `i` flag. */
  predicate MonthAt(s: string, p: nat) {
    p + 3 <= |s| && exists m :: 0 <= m < |Months| && LitAt(s, p, Months[m])
  }

  /** `\d{1,2}\s*(?:Jan|…|Dec)[a-z]*\.?` at `q`; the result is where the optional dot ends. */
  function DayMonthEnd(s: string, q: nat): (r: Option<nat>)
    ensures r.Some? ==> q < r.value <= |s|
  {
    if q < |s| && IsDigit(s[q]) then
      var d := if q + 1 < |s| && IsDigit(s[q + 1]) then q + 2 else q + 1;
      var m := SpacesEnd(s, d);
      if MonthAt(s, m) then
        var l := RunEnd(s, m + 3, Letter);
        Some(if l < |s| && s[l] == '.' then l + 1 else l)
      else None
    else None
  }

  /** The group of the labelled date pattern,
      `\d{1,2}\s*Mon[a-z]*\.?\s*,\s*\d{2}(?:\s*\d{2})?\s*\d{2}:\d{2}`, at `q`:
      the optional second digit pair is tried first. */
  function LongDateEnd(s: string, q: nat): (r: Option<nat>)
    ensures r.Some? ==> q < r.value <= |s|
  {
    match DayMonthEnd(s, q)
    case None => None
    case Some(a) =>
      var b := SpacesEnd(s, a);
      if b < |s| && s[b] == ',' then
        var c := SpacesEnd(s, b + 1);
        if DigitsAt(s, c, 2) then
          var e := SpacesEnd(s, c + 2);
          if DigitsAt(s, e, 2) && ClockAt(s, SpacesEnd(s, e + 2)) then Some(SpacesEnd(s, e + 2) + 5)
          else if ClockAt(s, e) then Some(e + 5)
          else None
        else None
      else None
  }

  /** `(?:DATE|TIME)?\s*(<long date>)` at `p`, yielding group 1. When the label
      is present the group must follow it; dropping the label leaves a letter
      where the group's first digit is needed, so that retry cannot succeed. */
  function LabelledDateAt(s: string, p: nat): (r: Option<string>)
    ensures r.Some? ==> |r.value| > 0 && IsDigit(r.value[0])
  {
    if p > |s| then None
    else
      var q := if LitAt(s, p, "DATE") || LitAt(s, p, "TIME") then SpacesEnd(s, p + 4) else SpacesEnd(s, p);
      match LongDateEnd(s, q)
      case Some(e) => Some(s[q..e])
      case None => None
  }

  /** `(\d{1,2}\s*Mon[a-z]*\.?,\s*\d{2}:\d{2})` at `p`. */
  function ShortDateAt(s: string, p: nat): (r: Option<string>)
    ensures r.Some? ==> |r.value| > 0 && IsDigit(r.value[0])
  {
    match DayMonthEnd(s, p)
    case None => None
    case Some(a) =>
      if a < |s| && s[a] == ',' then
        var c := SpacesEnd(s, a + 1);
        if ClockAt(s, c) then Some(s[p..c + 5]) else None
      else None
  }

  /** `(\s*DATE|\s*TIME)` at `p`, yielding where the match ends. */
  function DateLabelAt(s: string, p: nat): (r: Option<nat>)
    ensures r.Some? ==> p + 4 <= r.value <= |s|
  {
    if p > |s| then None
    else
      var m := SpacesEnd(s, p);
      if LitAt(s, m, "DATE") || LitAt(s, m, "TIME") then Some(m + 4) else None
  }

  /** `g.replace(/(\s*DATE|\s*TIME)/i, '')`: the leftmost label and the
      whitespace before it are cut out; nothing else changes. */
  function StripDateLabel(g: string): (r: string)
    ensures |r| <= |g|
    ensures (forall p :: 0 <= p <= |g| ==> DateLabelAt(g, p).None?) ==> r == g
    ensures forall h :: Leftmost(DateLabelAt, g, 0) == Some(h) ==> r == g[..h.at] + g[h.capture..]
  {
    match Leftmost(DateLabelAt, g, 0)
    case Some(h) => g[..h.at] + g[h.capture..]
    case None => g
  }

  /** `transaction_date_time`: the labelled pattern, else the short one; then
      any DATE/TIME label inside the group is cut out and the result trimmed. */
  function DateTimeOf(raw: string): (r: Option<string>)
    ensures r.Some? <==> FirstCapture(LabelledDateAt, raw).Some? || FirstCapture(ShortDateAt, raw).Some?
    ensures FirstCapture(LabelledDateAt, raw).Some? ==>
              r == Some(Trim(StripDateLabel(FirstCapture(LabelledDateAt, raw).value)))
    ensures FirstCapture(LabelledDateAt, raw).None? && FirstCapture(ShortDateAt, raw).Some? ==>
              r == Some(Trim(StripDateLabel(FirstCapture(ShortDateAt, raw).value)))
  {
    var g := match FirstCapture(LabelledDateAt, raw)
             case Some(x) => Some(x)
             case None => FirstCapture(ShortDateAt, raw);
    match g
    case Some(x) => Some(Trim(StripDateLabel(x)))
    case None => None
  }

  /** `\s*#?\s*([k]+)` after a label that ends at `a`: the captured run. */
  function HashRunAfter(s: string, a: nat, k: CharClass): (r: Option<string>)
    requires a <= |s|
    ensures r.Some? ==> |r.value| > 0 && AllIn(r.value, k)
  {
    var b := SpacesEnd(s, a);
    var c := if b < |s| && s[b] == '#' then SpacesEnd(s, b + 1) else b;
    var e := RunEnd(s, c, k);
    if e > c then Some(s[c..e]) else None
  }

  /** `(?:TERM|FERM|FERN)\s*#?\s*([A-Z0-9]+)` at `p`. */
  function TerminalAt(s: string, p: nat): (r: Option<string>)
    ensures r.Some? ==> |r.value| > 0 && AllIn(r.value, AlphaNum)
  {
    if LitAt(s, p, "TERM") || LitAt(s, p, "FERM") || LitAt(s, p, "FERN") then HashRunAfter(s, p + 4, AlphaNum)
    else None
  }

  /** `(?:HERC|MERC)\s*#?\s*([0-9]+)` at `p`. */
  function MerchantCodeAt(s: string, p: nat): (r: Option<string>)
    ensures r.Some? ==> |r.value| > 0 && AllIn(r.value, Digit)
  {
    if LitAt(s, p, "HERC") || LitAt(s, p, "MERC") then HashRunAfter(s, p + 4, Digit)
    else None
  }

  /** `(?:\s*\(DIP\)|\s*\(FLY\))?` at `e`: where the optional suffix ends. */
  function ParenSuffixEnd(s: string, e: nat): (r: nat)
    requires e <= |s|
    ensures e <= r <= |s|
  {
    var w := SpacesEnd(s, e);
    if LitAt(s, w, "(DIP)") || LitAt(s, w, "(FLY)") then w + 5 else e
  }

  /** The group `[A-Z\s]+(?:MC|BCA|VISA)?(?:\s*\(DIP\)|\s*\(FLY\))?` from `q`:
      the greedy run swallows any brand letters, so the brand is never matched
      separately. */
  function CardTypeFrom(s: string, q: nat): (r: string)
    requires q < |s| && InClass(s[q], LetterOrSpace)
    ensures |r| > 0
  {
    var e := RunEnd(s, q, LetterOrSpace);
    s[q..ParenSuffixEnd(s, e)]
  }

  /** `CARD TYPE\s*(…)` at `p`. When no letter follows the whitespace, `\s*`
      gives its last whitespace character back to the group. */
  function CardTypeAt(s: string, p: nat): (r: Option<string>)
    ensures r.Some? ==> |r.value| > 0
  {
    if LitAt(s, p, "CARD TYPE") then
      var a := SpacesEnd(s, p + 9);
      if a < |s| && IsLetter(s[a]) then Some(CardTypeFrom(s, a))
      else if a > p + 9 then Some(CardTypeFrom(s, a - 1))
      else None
    else None
  }

  /** `(DEBIT\s*(?:MC|BCA|VISA)(?:\s*\(DIP\)|\s*\(FLY\))?)` at `p`. */
  function DebitCardTypeAt(s: string, p: nat): (r: Option<string>)
    ensures r.Some? ==> |r.value| >= 7 && EqualsIgnoreCase(r.value[..5], "DEBIT")
    ensures r.Some? ==> exists k :: 5 <= k <= |r.value| && IsScheme(r.value, k)
  {
    if LitAt(s, p, "DEBIT") then
      var a := SpacesEnd(s, p + 5);
      var b := if LitAt(s, a, "MC") then Some(a + 2)
               else if LitAt(s, a, "BCA") then Some(a + 3)
               else if LitAt(s, a, "VISA") then Some(a + 4)
               else None;
      match b
      case Some(e) =>
        var v := s[p..ParenSuffixEnd(s, e)];
        SchemeInSlice(s, p, a, ParenSuffixEnd(s, e));
        Some(v)
      case None => None
    else None
  }

  /** One of the card schemes `MC`, `BCA` or `VISA` starts at `k`. */
  predicate IsScheme(s: string, k: nat) {
    LitAt(s, k, "MC") || LitAt(s, k, "BCA") || LitAt(s, k, "VISA")
  }

  /** A scheme found in the text is still there in a slice that covers it. */
  lemma SchemeInSlice(s: string, p: nat, a: nat, e: nat)
    requires p + 5 <= a <= e <= |s|
    requires IsScheme(s, a)
    requires (LitAt(s, a, "MC") && a + 2 <= e) || (LitAt(s, a, "BCA") && a + 3 <= e) || (LitAt(s, a, "VISA") && a + 4 <= e)
    ensures IsScheme(s[p..e], a - p)
  {
    if LitAt(s, a, "MC") && a + 2 <= e {
      LitAtSlice(s, p, e, a, "MC");
    } else if LitAt(s, a, "BCA") && a + 3 <= e {
      LitAtSlice(s, p, e, a, "BCA");
    } else {
      LitAtSlice(s, p, e, a, "VISA");
    }
  }

  /** `(\*{6,}\d{4})` at `p`. */
  function MaskedCardAt(s: string, p: nat): (r: Option<string>)
    ensures r.Some? ==> |r.value| >= 10
    ensures r.Some? ==> forall i :: 0 <= i < |r.value| - 4 ==> r.value[i] == '*'
    ensures r.Some? ==> forall i :: |r.value| - 4 <= i < |r.value| ==> IsDigit(r.value[i])
  {
    if p < |s| then
      var e := RunEnd(s, p, Star);
      if e - p >= 6 && DigitsAt(s, e, 4) then Some(s[p..e + 4]) else None
    else None
  }

  /** `\s*(\d+)` after position `a`. */
  function DigitRunAfter(s: string, a: nat): (r: Option<string>)
    requires a <= |s|
    ensures r.Some? ==> |r.value| > 0 && AllIn(r.value, Digit)
  {
    var b := SpacesEnd(s, a);
    var e := RunEnd(s, b, Digit);
    if e > b then Some(s[b..e]) else None
  }

  /** `BATCH\s*:\s*(\d+)` at `p`. */
  function BatchAt(s: string, p: nat): (r: Option<string>)
    ensures r.Some? ==> |r.value| > 0 && AllIn(r.value, Digit)
  {
    if LitAt(s, p, "BATCH") then
      var a := SpacesEnd(s, p + 5);
      if a < |s| && s[a] == ':' then DigitRunAfter(s, a + 1) else None
    else None
  }

  /** `<label>\s*(\d+)` at `p`, for the trace, approval and reference labels. */
  function LabelledDigitsAt(s: string, p: nat, tag: string): (r: Option<string>)
    ensures r.Some? ==> |r.value| > 0 && AllIn(r.value, Digit)
  {
    if LitAt(s, p, tag) then DigitRunAfter(s, p + |tag|) else None
  }

  /** `TRACE NO:\s*(\d+)` */
  function TraceAt(s: string, p: nat): Option<string> {
    LabelledDigitsAt(s, p, "TRACE NO:")
  }

  /** `APPR\.CODE\s*(\d+)` */
  function ApprovalAt(s: string, p: nat): Option<string> {
    LabelledDigitsAt(s, p, "APPR.CODE")
  }

  /** `REF\.NO\.\s*(\d+)` */
  function ReferenceAt(s: string, p: nat): Option<string> {
    LabelledDigitsAt(s, p, "REF.NO.")
  }

  /** The two groups of `(-?)\s*Rp\s*([\d\.,]+)`: whether the sign was
      captured, and the run of digits, dots and commas. */
  datatype AmountText = AmountText(negative: bool, digits: string)

  /** `(-?)\s*Rp\s*([\d\.,]+)` at `p`. Leaving the `-` out on a retry puts it
      where `Rp` is needed, so a captured sign is never given back. */
  function AmountAt(s: string, p: nat): (r: Option<AmountText>)
    ensures r.Some? ==> |r.value.digits| > 0 && AllIn(r.value.digits, AmountChar)
    ensures r.Some? ==> p < |s| && (r.value.negative <==> s[p] == '-')
  {
    if p >= |s| then None
    else
      var neg := s[p] == '-';
      var a := SpacesEnd(s, if neg then p + 1 else p);
      if LitAt(s, a, "RP") then
        var b := SpacesEnd(s, a + 2);
        var e := RunEnd(s, b, AmountChar);
        if e > b then Some(AmountText(neg, s[b..e])) else None
      else None
  }

  /** First alternative: `[A-Z0-9]{4,}\/[A-Z0-9]{4,}` at `p`. */
  function SlashPairEnd(s: string, p: nat): (r: Option<nat>)
    ensures r.Some? ==> p + 9 <= r.value <= |s|
  {
    if p < |s| then
      var e1 := RunEnd(s, p, AlphaNum);
      if e1 - p >= 4 && e1 < |s| && s[e1] == '/' then
        var e2 := RunEnd(s, e1 + 1, AlphaNum);
        if e2 - (e1 + 1) >= 4 then Some(e2) else None
      else None
    else None
  }

  /** Second alternative: `\bANS[A-Z0-9]+\b` at `p`. */
  function AnsTokenEnd(s: string, p: nat): (r: Option<nat>)
    ensures r.Some? ==> p + 4 <= r.value <= |s|
  {
    if WordBoundary(s, p) && LitAt(s, p, "ANS") then
      var e := RunEnd(s, p + 3, AlphaNum);
      if e > p + 3 && WordBoundary(s, e) then Some(e) else None
    else None
  }

  /** Third alternative: `\b[0-9]{2}[A-Z][0-9]{2}[A-Z]{3}\/[A-Z0-9]+\b` at `p`. */
  function BatchCodeEnd(s: string, p: nat): (r: Option<nat>)
    ensures r.Some? ==> p + 10 <= r.value <= |s|
  {
    if WordBoundary(s, p) && p + 9 <= |s| && DigitsAt(s, p, 2) && IsLetter(s[p + 2]) && DigitsAt(s, p + 3, 2)
       && IsLetter(s[p + 5]) && IsLetter(s[p + 6]) && IsLetter(s[p + 7]) && s[p + 8] == '/' then
      var e := RunEnd(s, p + 9, AlphaNum);
      if e > p + 9 && WordBoundary(s, e) then Some(e) else None
    else None
  }

  /** The whole match of the internal-code pattern at `p`: its three
      alternatives in the order the pattern lists them. */
  function InternalCodeAt(s: string, p: nat): (r: Option<string>)
    ensures r.Some? ==> |r.value| >= 4
  {
    match SlashPairEnd(s, p)
    case Some(e) => Some(s[p..e])
    case None =>
      match AnsTokenEnd(s, p)
      case Some(e) => Some(s[p..e])
      case None =>
        match BatchCodeEnd(s, p)
        case Some(e) => Some(s[p..e])
        case None => None
  }
}

=== FILE: text.dfy ===
/** The JavaScript string operations both parsers lean on: `trim`, `split`,
    `toUpperCase`, `includes`, and the two `replace` shapes the amount
    normalisation uses. */
module Text {
  import opened Chars
  import opened Scan

  predicate AllSpace(s: string) {
    forall i :: 0 <= i < |s| ==> IsSpace(s[i])
  }

  /** `s.trimStart()` */
  function TrimStart(s: string): (r: string)
    ensures |r| <= |s|
    ensures |r| == 0 || !IsSpace(r[0])
    decreases |s|
  {
    if |s| > 0 && IsSpace(s[0]) then TrimStart(s[1..]) else s
  }

  /** `s.trimEnd()` */
  function TrimEnd(s: string): (r: string)
    ensures |r| <= |s|
    ensures |r| == 0 || !IsSpace(r[|r| - 1])
    decreases |s|
  {
    if |s| > 0 && IsSpace(s[|s| - 1]) then TrimEnd(s[..|s| - 1]) else s
  }

  /** `trimStart` removes a whitespace prefix and keeps the rest. */
  lemma {:induction false} TrimStartIsSuffix(s: string)
    ensures TrimStart(s) == s[|s| - |TrimStart(s)|..]
    ensures AllSpace(s[..|s| - |TrimStart(s)|])
    decreases |s|
  {
    if |s| > 0 && IsSpace(s[0]) {
      TrimStartIsSuffix(s[1..]);
      var k := |s| - |TrimStart(s)|;
      assert s[1..][k - 1..] == s[k..];
      assert forall i :: 1 <= i < k ==> s[i] == s[1..][..k - 1][i - 1];
    }
  }

  /** `trimEnd` removes a whitespace suffix and keeps the rest. */
  lemma {:induction false} TrimEndIsPrefix(s: string)
    ensures TrimEnd(s) == s[..|TrimEnd(s)|]
    ensures AllSpace(s[|TrimEnd(s)|..])
    decreases |s|
  {
    if |s| > 0 && IsSpace(s[|s| - 1]) {
      var t := s[..|s| - 1];
      TrimEndIsPrefix(t);
      var n := |TrimEnd(s)|;
      assert t[..n] == s[..n];
      assert forall i :: n <= i < |s| - 1 ==> s[i] == t[n..][i - n];
    }
  }

  /** `s.trim()` */
  function Trim(s: string): (r: string)
    ensures |r| <= |s|
    ensures |r| == 0 || (!IsSpace(r[0]) && !IsSpace(r[|r| - 1]))
  {
    var t := TrimStart(s);
    TrimEndIsPrefix(t);
    TrimEnd(t)
  }

  /** What `trim` removes is whitespace at either end and nothing else. */
  lemma TrimIsInfix(s: string)
    ensures exists i :: 0 <= i <= |s| - |Trim(s)| && Trim(s) == s[i..i + |Trim(s)|] && AllSpace(s[..i]) && AllSpace(s[i + |Trim(s)|..])
  {
    var t := TrimStart(s);
    TrimStartIsSuffix(s);
    TrimEndIsPrefix(t);
    var r := TrimEnd(t);
    var i := |s| - |t|;
    assert t == s[i..];
    assert r == t[..|r|];
    assert r == s[i..i + |r|];
    assert AllSpace(s[..i]);
    assert s[i + |r|..] == t[|r|..];
    assert AllSpace(s[i + |r|..]);
  }

  /** Trimming a string that already neither starts nor ends with whitespace changes nothing. */
  lemma TrimOfTrimmed(s: string)
    requires |s| == 0 || (!IsSpace(s[0]) && !IsSpace(s[|s| - 1]))
    ensures Trim(s) == s
  {
    if |s| > 0 {
      var t := TrimStart(s);
      assert t == s;
      assert TrimEnd(t) == t;
    }
  }

  /** `Trim` is idempotent. */
  lemma TrimIdempotent(s: string)
    ensures Trim(Trim(s)) == Trim(s)
  {
    TrimOfTrimmed(Trim(s));
  }

  /** Trimming never introduces a character. */
  lemma TrimKeepsOut(s: string, c: char)
    requires c !in s
    ensures c !in Trim(s)
  {
    var t := TrimStart(s);
    TrimStartIsSuffix(s);
    TrimEndIsPrefix(t);
    assert t == s[|s| - |t|..];
    assert c !in t;
    var r := TrimEnd(t);
    assert r == t[..|r|];
  }

  /** A string without whitespace is its own trim. */
  lemma TrimNoSpace(s: string)
    requires forall i :: 0 <= i < |s| ==> !IsSpace(s[i])
    ensures Trim(s) == s
  {
    TrimOfTrimmed(s);
  }

  /** A run of ASCII letters and digits is its own trim. */
  lemma TrimAlphaNum(s: string)
    requires AllIn(s, AlphaNum)
    ensures Trim(s) == s
  {
    forall i | 0 <= i < |s|
      ensures !IsSpace(s[i])
    {
      assert IsAlphaNum(s[i]);
    }
    TrimNoSpace(s);
  }

  /** A string that starts with a non-space character keeps at least that character. */
  lemma TrimNonBlank(s: string)
    requires |s| > 0 && !IsSpace(s[0])
    ensures |Trim(s)| > 0 && Trim(s)[0] == s[0]
  {
    assert TrimStart(s) == s;
    TrimEndIsPrefix(s);
  }

  /** Concatenation of `parts` with `sep` between neighbours: `parts.join(sep)`. */
  function Join(parts: seq<string>, sep: char): string
  {
    if |parts| == 0 then []
    else if |parts| == 1 then parts[0]
    else parts[0] + [sep] + Join(parts[1..], sep)
  }

  /** `s.split(sep)` for a one-character separator: the pieces between separators. */
  function Split(s: string, sep: char): (r: seq<string>)
    ensures |r| >= 1
    ensures Join(r, sep) == s
    ensures forall i :: 0 <= i < |r| ==> sep !in r[i]
    decreases |s|
  {
    if |s| == 0 then [[]]
    else
      var rest := Split(s[1..], sep);
      if s[0] == sep then [[]] + rest
      else [[s[0]] + rest[0]] + rest[1..]
  }

  /** `s.toUpperCase()` restricted to ASCII letters. */
  function ToUpper(s: string): (r: string)
    ensures |r| == |s|
    ensures forall i :: 0 <= i < |s| ==> r[i] == Upper(s[i])
  {
    seq(|s|, i requires 0 <= i < |s| => Upper(s[i]))
  }

  predicate OccursAt(s: string, sub: string, i: nat) {
    i + |sub| <= |s| && s[i..i + |sub|] == sub
  }

  /** `s.indexOf(sub)`: the first position at which `sub` occurs. */
  function IndexOf(s: string, sub: string): (r: Option<nat>)
    ensures r.Some? ==> OccursAt(s, sub, r.value) && forall k :: 0 <= k < r.value ==> !OccursAt(s, sub, k)
    ensures r.None? <==> forall k :: 0 <= k <= |s| ==> !OccursAt(s, sub, k)
  {
    var m := (t: string, p: nat) => if OccursAt(t, sub, p) then Some(p) else None;
    var h := Leftmost(m, s, 0);
    if h.Some? then
      assert forall k :: 0 <= k < h.value.at ==> m(s, k).None? ==> !OccursAt(s, sub, k);
      Some(h.value.at)
    else
      assert forall k :: 0 <= k <= |s| ==> m(s, k).None? ==> !OccursAt(s, sub, k);
      None
  }

  /** `s.includes(sub)`, case-sensitive. */
  predicate Includes(s: string, sub: string) {
    IndexOf(s, sub).Some?
  }

  lemma IncludesMeansOccurs(s: string, sub: string)
    ensures Includes(s, sub) <==> exists k :: 0 <= k <= |s| && OccursAt(s, sub, k)
  {
  }

  /** `sub` occurs in `s` under ASCII case folding: `s.toUpperCase().includes(SUB)`
      and, for an upper-case ASCII literal, the `/SUB/i` test. */
  predicate IncludesIgnoreCase(s: string, sub: string) {
    Includes(ToUpper(s), ToUpper(sub))
  }

  /** An upper-case needle is found ignoring case exactly where the text
      matches it letter for letter ignoring case. */
  lemma IncludesIgnoreCaseAt(s: string, lit: string)
    requires ToUpper(lit) == lit
    ensures IncludesIgnoreCase(s, lit) <==> exists k :: 0 <= k <= |s| && LitAt(s, k, lit)
  {
    var u := ToUpper(s);
    IncludesMeansOccurs(u, lit);
    forall k | 0 <= k <= |s|
      ensures OccursAt(u, lit, k) <==> LitAt(s, k, lit)
    {
      if k + |lit| <= |s| {
        var x := u[k..k + |lit|];
        var y := s[k..k + |lit|];
        assert forall i :: 0 <= i < |lit| ==> x[i] == Upper(y[i]);
        assert forall i :: 0 <= i < |lit| ==> Upper(lit[i]) == lit[i] by {
          forall i | 0 <= i < |lit| ensures Upper(lit[i]) == lit[i] {
            assert ToUpper(lit)[i] == Upper(lit[i]);
          }
        }
        if LitAt(s, k, lit) {
          assert forall i :: 0 <= i < |lit| ==> x[i] == lit[i];
          assert x == lit;
        }
      }
    }
  }

  /** The first index at or after `from` whose element satisfies `p`. */
  function FirstWhere<T>(xs: seq<T>, from: nat, p: T -> bool): (r: Option<nat>)
    ensures r.Some? ==> from <= r.value < |xs| && p(xs[r.value])
    ensures r.Some? ==> forall k :: from <= k < r.value ==> !p(xs[k])
    ensures r.None? <==> forall k :: from <= k < |xs| ==> !p(xs[k])
    decreases |xs| - from
  {
    if from >= |xs| then None
    else if p(xs[from]) then Some(from)
    else FirstWhere(xs, from + 1, p)
  }

  /** `s.replace(/c/g, '')` */
  function RemoveAll(s: string, c: char): (r: string)
    ensures c !in r
    ensures forall x :: x != c ==> (x in r <==> x in s)
    ensures |r| <= |s|
  {
    if |s| == 0 then []
    else if s[0] == c then RemoveAll(s[1..], c)
    else [s[0]] + RemoveAll(s[1..], c)
  }

  /** Every occurrence of `c` goes and every other character stays as often
      as it occurred. */
  lemma {:induction false} RemoveAllCounts(s: string, c: char)
    ensures multiset(RemoveAll(s, c)) == multiset(s)[c := 0]
    decreases |s|
  {
    if |s| > 0 {
      assert s == [s[0]] + s[1..];
      RemoveAllCounts(s[1..], c);
    }
  }

  lemma {:induction false} RemoveAllAppend(a: string, b: string, c: char)
    ensures RemoveAll(a + b, c) == RemoveAll(a, c) + RemoveAll(b, c)
    decreases |a|
  {
    if |a| > 0 {
      assert (a + b)[1..] == a[1..] + b;
      RemoveAllAppend(a[1..], b, c);
    } else {
      assert a + b == b;
    }
  }

  /** The index of the first `c` in `s`, if any. */
  function CharIndex(s: string, c: char): (r: Option<nat>)
    ensures r.Some? ==> r.value < |s| && s[r.value] == c
    ensures r.Some? ==> forall k :: 0 <= k < r.value ==> s[k] != c
    ensures r.None? <==> forall k :: 0 <= k < |s| ==> s[k] != c
  {
    if |s| == 0 then None
    else if s[0] == c then Some(0)
    else match CharIndex(s[1..], c)
      case None => None
      case Some(k) => Some(k + 1)
  }

  /** `s.replace(c, '')` for a one-character string `c`: only the first occurrence goes. */
  function RemoveFirst(s: string, c: char): (r: string)
    ensures |r| == if c in s then |s| - 1 else |s|
  {
    match CharIndex(s, c)
    case None =>
      assert c !in s by {
        forall i | 0 <= i < |s| ensures s[i] != c { }
      }
      s
    case Some(k) => s[..k] + s[k + 1..]
  }

  /** Text without `c` is left alone; otherwise exactly the first `c` is deleted. */
  lemma RemoveFirstOnce(s: string, c: char)
    ensures c !in s ==> RemoveFirst(s, c) == s
    ensures c in s ==> exists k :: 0 <= k < |s| && s[k] == c && c !in s[..k]
                                   && RemoveFirst(s, c) == s[..k] + s[k + 1..]
  {
    match CharIndex(s, c)
    case None =>
    case Some(k) =>
      assert c !in s[..k] by {
        forall i | 0 <= i < k ensures s[..k][i] != c { }
      }
  }

  /** `s.replace(a, b)` for a one-character string `a`: only the first occurrence changes. */
  function ReplaceFirst(s: string, a: char, b: char): (r: string)
    ensures |r| == |s|
  {
    match CharIndex(s, a)
    case None => s
    case Some(k) => s[..k] + [b] + s[k + 1..]
  }

  /** Text without `a` is left alone; otherwise exactly the first `a` becomes `b`. */
  lemma ReplaceFirstOnce(s: string, a: char, b: char)
    ensures a !in s ==> ReplaceFirst(s, a, b) == s
    ensures a in s ==> exists k :: 0 <= k < |s| && s[k] == a && a !in s[..k]
                                   && ReplaceFirst(s, a, b) == s[..k] + [b] + s[k + 1..]
  {
    match CharIndex(s, a)
    case None =>
      assert a !in s by {
        forall i | 0 <= i < |s| ensures s[i] != a { }
      }
    case Some(k) =>
      assert a !in s[..k] by {
        forall i | 0 <= i < k ensures s[..k][i] != a { }
      }
  }

  /** A leading character other than `c` shifts the first `c` by one. */
  lemma CharIndexCons(x: char, s: string, c: char)
    requires x != c
    ensures CharIndex([x] + s, c) == match CharIndex(s, c) case None => None case Some(k) => Some(k + 1)
  {
    assert ([x] + s)[1..] == s;
  }

  /** A leading character other than `a` is left in front of the replacement. */
  lemma ReplaceFirstCons(c: char, s: string, a: char, b: char)
    requires c != a
    ensures ReplaceFirst([c] + s, a, b) == [c] + ReplaceFirst(s, a, b)
  {
    CharIndexCons(c, s, a);
    match CharIndex(s, a)
    case None =>
    case Some(k) =>
      var t := [c] + s;
      assert t[..k + 1] == [c] + s[..k];
      assert t[k + 2..] == s[k + 1..];
  }

  /** The first occurrence of `a` is the one right after a prefix free of `a`. */
  lemma ReplaceFirstAfter(x: string, y: string, a: char, b: char)
    requires a !in x
    ensures ReplaceFirst(x + [a] + y, a, b) == x + [b] + y
  {
    var s := x + [a] + y;
    assert s[|x|] == a;
    var k := CharIndex(s, a).value;
    assert forall j :: 0 <= j < |x| ==> s[j] == x[j];
    assert k == |x|;
    assert s[..k] == x;
    assert s[k + 1..] == y;
  }

  /** Replacing a character by another never introduces a third one. */
  lemma ReplaceFirstKeepsOut(s: string, a: char, b: char, c: char)
    requires c !in s && c != b
    ensures c !in ReplaceFirst(s, a, b)
  {
    var r := ReplaceFirst(s, a, b);
    forall i | 0 <= i < |r| ensures r[i] != c {
      match CharIndex(s, a)
      case None =>
      case Some(k) =>
        assert r[i] == if i < k then s[i] else if i == k then b else s[i];
    }
  }
}
